=== FILE: README.md ===
# CiviCRM shortcode handlers, modelled in Dafny

This project models two shortcode handlers of a WordPress plugin that shows CiviCRM data on pages.

- **`civicrm-event-listing`** asks the CRM for upcoming public, active events. The rows come sorted by start date. The handler groups them under an "F, Y" month heading, which opens whenever an event's label differs from the previous one. Each event becomes one item: a title linking to the event's info page, and a bold date range followed by a register link. The range is "j F Y", with "g:i a" added unless the event starts at midnight. The item ends with the summary and a second "More information" link.
- **`ux_campaign_goal_amount`** does the following:
  - lower-cases the attribute keys;
  - requires a non-empty campaign id;
  - fetches that campaign with one `getsingle` query;
  - answers "Campaign not found." on an exception, an empty result or an error flag;
  - otherwise shows the goal revenue through the CRM's money formatter.

Modules:

- `Php` covers the PHP semantics the handlers rely on:
  - `empty()` on strings (`""` and `"0"`);
  - PHP arrays as their entries in iteration order, each key once (`Attrs`); a key that is assigned again keeps its first place;
  - runs of assignments, read so that the last assignment to a key wins (`Assignments`), which is how `array_change_key_case` builds its result;
  - `array_change_key_case`;
  - `explode` and `implode`.
- `Crm` defines the values sent to `civicrm_api3` and a handler's `Response`. A `Response` is the output text plus the log of queries issued, so "no query was sent" can be stated.
- `DateFormat` defines a calendar date record and the `DateTime::format` directives the handler uses (`j F Y g h i a`). It proves what the printed texts tell apart:
  - the month label names the (month, year);
  - the "j F Y" text names the calendar day;
  - "12:00 am" under "h:i a" means midnight.
- `EventListing` models the event handler. The listing loop is a method with invariants. A functional reference, the sequence of `Fragment`s (month headings and items), states what the loop builds. The properties are proved on that sequence:
  - items in input order;
  - grouping;
  - heading count;
  - the wrapper;
  - ascending months on sorted rows.
- `CampaignGoalAmount` models the campaign handler as a pure function of the attributes, the CRM call and the money formatter.
- `Scenarios` evaluates an item's date range and the month grouping on concrete dates, and checks that the two tags differ. The concrete-attribute cases of the campaign handler are `CampaignGoalAmount.ZeroIdIsMissing`, `CampaignGoalAmount.LastIdWins` and `CampaignGoalAmount.OverwrittenKeyKeepsPlace`.

External code is passed in as parameters:

- `civicrm_api3` is a function `api` from a `Query` to a result.
- `home_url('/')` is a string `home`.
- `CRM_Utils_Money::format`, applied after the `(float)` cast, is a function `formatMoney` on the raw field text.
- The item renderer is the function `item` in `RenderListing`. The handler fixes it to `ItemRenderer(home)`.

Both handlers are functions of these inputs, so calling a handler twice with the same attributes and the same CRM answers gives the same output.

Three behaviours of the code that a reader might not expect:

- A campaign id of `"0"` is answered like a missing id, because `empty()` counts `"0"` as empty. `CampaignGoalAmount.ZeroIdIsMissing` shows it.
- The event handler does not lower-case its attribute keys. Only a key spelled exactly `types` filters by event type.
- The handler does not sort the rows itself. On unsorted rows a month label can come back after another month; on rows sorted as the query asks (`start_date ASC`), it cannot. `EventListing.MonthsAscending` therefore assumes `SortedByStart`. On unsorted rows, `EventListing.Grouped` and `EventListing.HeadingsCounted` still hold.

## Model

| member | source | states |
|---|---|---|
| Php.Lookup | shortcodes/campaign/campaign-goal-amount.php:27-33 | Reading a key after a run of assignments finds the value of the last assignment to that key. The result is null exactly when the key was never assigned. |
| Php.LookupEntry | shortcodes/civicrm-event-listing.php:40-41 | On a PHP array, whose keys are distinct, `$atts[$key]` is the value of the one entry with that key. |
| Php.ChangeKeyCaseIdempotent | shortcodes/campaign/campaign-goal-amount.php:24 | Normalising the keys of an already normalised array changes nothing. |
| Php.LookupLowered | shortcodes/campaign/campaign-goal-amount.php:24-33 | After lower-casing a PHP array, a lower-case key finds the last attribute, in the array's iteration order, whose key spells it in any letter case. It is absent exactly when no key does. |
| Php.KeyCaseIsIrrelevant | shortcodes/campaign/campaign-goal-amount.php:24 | Two PHP arrays whose entries, in iteration order, differ only in the letter case of keys normalise to the same array. |
| Php.Explode | shortcodes/civicrm-event-listing.php:41 | Splitting gives at least one piece, and no piece contains the separator. |
| Php.ImplodeExplode | shortcodes/civicrm-event-listing.php:41 | Joining the pieces of a split with the separator gives back the original string. |
| Php.ExplodeImplode | shortcodes/civicrm-event-listing.php:41-42 | Splitting a join of separator-free parts gives back the parts, so the type list is exactly the comma-separated entries. |
| DateFormat.ParseDecimal | shortcodes/civicrm-event-listing.php:81-82 | The digits printed for `j` and `g` read back as the number. |
| DateFormat.PaddedInjective | shortcodes/civicrm-event-listing.php:70 | Zero-padded digits (`Y`, `h`, `i`) that fit their width determine the number. |
| DateFormat.MonthNameRoundTrip | shortcodes/civicrm-event-listing.php:54 | The month name printed for `F` reads back as the month number. |
| DateFormat.Hour12 | shortcodes/civicrm-event-listing.php:70 | The 12-hour clock value lies in 1..12 and agrees with the hour modulo 12. |
| DateFormat.FormatAppend | shortcodes/civicrm-event-listing.php:73 | Formatting a pattern written after another prints its text after the other's. |
| DateFormat.DayMonthYearIsFormat | shortcodes/civicrm-event-listing.php:71 | The day text is what `format('j F Y')` prints, e.g. "10 March 2024". |
| DateFormat.MonthYearIsFormat | shortcodes/civicrm-event-listing.php:54 | The group label is what `format('F, Y')` prints. |
| DateFormat.TimeIsFormat | shortcodes/civicrm-event-listing.php:82 | The end time is what `format('g:i a')` prints. |
| DateFormat.PaddedTimeIsFormat | shortcodes/civicrm-event-listing.php:70 | The midnight probe is what `format('h:i a')` prints. |
| DateFormat.DayMonthYearTimeIsFormat | shortcodes/civicrm-event-listing.php:73 | The date-and-time text is what `format('j F Y g:i a')` prints: the day text, a space, then the time. |
| DateFormat.MonthYearLabelIff | shortcodes/civicrm-event-listing.php:54-56 | Two "F, Y" labels are equal exactly when the dates share month and year (`SameMonth`). |
| DateFormat.SameDayIff | shortcodes/civicrm-event-listing.php:81 | Two "j F Y" texts are equal exactly when the dates fall on the same calendar day (`SameDay`). |
| DateFormat.MidnightIff | shortcodes/civicrm-event-listing.php:70 | The time reads "12:00 am" under "h:i a" exactly when hour and minute are both zero. |
| EventListing.ShortcodeName | shortcodes/civicrm-event-listing.php:20-22 | The handler's tag has a conservative shortcode-tag shape: non-empty, lower-case letters, digits, `-` and `_`. |
| EventListing.EventParams | shortcodes/civicrm-event-listing.php:32-43 | The query asks for public, active, future events, sorted by start date ascending, with limit PHP_INT_MAX. A type filter is present exactly when attributes were given and `types` is truthy. Its list joins back to the `types` text with no entry containing a comma. |
| EventListing.ShowIsFormat | shortcodes/civicrm-event-listing.php:70-74 | A date shown in either style is what `format` prints for that style's pattern. |
| EventListing.StyleFor | shortcodes/civicrm-event-listing.php:70-74 | The start is shown without a time exactly when it falls at midnight (00:00). |
| EventListing.EndDateText | shortcodes/civicrm-event-listing.php:76-86 | With no end date, nothing follows the start. An end on the start's day adds " to " and the end time only. An end on another day adds " to " and the end in the start's style. |
| EventListing.EventUrl | shortcodes/civicrm-event-listing.php:101-111 | An event page address starts with the site's root URL, ends with the event id, and has the length of its parts. |
| EventListing.EventUrlInjective | shortcodes/civicrm-event-listing.php:101-111 | Two event page addresses under one site are equal only for the same page (info or register) of the same event id. |
| EventListing.LinksDiffer | shortcodes/civicrm-event-listing.php:101-111 | A register link never equals an info link under the same site, whatever the ids and link text. |
| EventListing.RegisterLinkInjective | shortcodes/civicrm-event-listing.php:101-105 | Equal register links are for the same event id. |
| EventListing.RegisterLink | shortcodes/civicrm-event-listing.php:101-105 | The register link is an anchor that opens in a new window, carries the event's registration URL and reads "Register now". |
| EventListing.InfoLink | shortcodes/civicrm-event-listing.php:107-111 | The info link is an anchor that opens in a new window, carries the event's info URL and shows the given text. |
| EventListing.ItemHtml | shortcodes/civicrm-event-listing.php:68-93 | An item's markup begins with the item container's opening tag and ends with `</div>`. |
| EventListing.ItemShowsTitle | shortcodes/civicrm-event-listing.php:88 | An item contains an `<h3>` heading whose content is exactly the info link showing the event's title. |
| EventListing.ItemShowsDates | shortcodes/civicrm-event-listing.php:89 | An item contains one paragraph with the date range in bold, then " - " and the register link. |
| EventListing.ItemShowsSummary | shortcodes/civicrm-event-listing.php:90 | An item contains the event's summary followed by one space and the "More information" link to its info page. |
| EventListing.LabelNotEmpty | shortcodes/civicrm-event-listing.php:54-56 | A month label is never PHP-empty, so the `empty` test only fires before the first heading. |
| EventListing.HeadingTest | shortcodes/civicrm-event-listing.php:54-59 | The loop's test `empty($current) \|\| $current !== $date` holds exactly when the event is the first or starts in another (month, year) than the previous one. |
| EventListing.AddEvent | shortcodes/civicrm-event-listing.php:54-60 | One pass of the loop leaves the row's "F, Y" label as the carried label. The output grows by a heading exactly when the row opens a new month, followed by the row's item. |
| EventListing.BodyIsRender | shortcodes/civicrm-event-listing.php:53-61 | The text the loop accumulates equals the rendering of the fragment sequence, in which each row's item is preceded by a heading exactly when it opens a month. |
| EventListing.RenderListing | shortcodes/civicrm-event-listing.php:51-65 | The loop that carries the current label builds the wrapper around the rendered fragments: each event's item, preceded by a month heading exactly when it starts a new month. |
| EventListing.ShortcodeCallback | shortcodes/civicrm-event-listing.php:31-66 | The handler sends exactly one event query. On an exception it answers exactly "error" and no markup. Otherwise it answers the listing of the rows returned. |
| EventListing.ItemsInOrder | shortcodes/civicrm-event-listing.php:53-61 | Every row becomes exactly one item, in the order the rows arrived. |
| EventListing.Grouped | shortcodes/civicrm-event-listing.php:53-61 | Every heading is directly followed by an item of its month, and every item sits under the heading of its own month. |
| EventListing.HeadingsCounted | shortcodes/civicrm-event-listing.php:53-59 | There is one heading for the first row and one more at each change of (month, year) between neighbouring rows. There are none when no rows came back. |
| EventListing.HeadingMonthsUpTo | shortcodes/civicrm-event-listing.php:53-59 | The headings name, in order, the start dates of the rows that open a month group. |
| EventListing.AscendingUpTo | shortcodes/civicrm-event-listing.php:37 | On rows sorted by start date, the group openings lie in strictly ascending months, and the last opening is in the current row's month. |
| EventListing.MonthsAscending | shortcodes/civicrm-event-listing.php:37 | On rows sorted by start date, the heading months strictly ascend, so no month's caption appears twice. |
| EventListing.ListingShape | shortcodes/civicrm-event-listing.php:52 | The output always starts with the listing container's opening tag and ends with its closing tag. It is the bare container exactly when no rows came back. |
| CampaignGoalAmount.ShortcodeName | shortcodes/campaign/campaign-goal-amount.php:11-13 | The handler's tag has the same conservative shortcode-tag shape. |
| CampaignGoalAmount.CampaignId | shortcodes/campaign/campaign-goal-amount.php:24-33 | The id is the value of the last attribute, in the array's iteration order, whose key is "id" in any letter case, and "" when there is none. |
| CampaignGoalAmount.NullRevenueIsEmptyRevenue | shortcodes/campaign/campaign-goal-amount.php:53-55 | A found campaign without a `goal_revenue` field gets the same response as one whose `goal_revenue` is "", as the `(float)` cast reads null and "" alike. |
| CampaignGoalAmount.ShortcodeCallback | shortcodes/campaign/campaign-goal-amount.php:22-56 | A PHP-empty id gives the missing-id message with no query. Otherwise exactly one `getsingle` query is sent. A failed result gives "Campaign not found.", and a found campaign gives its formatted goal revenue. |
| CampaignGoalAmount.KeyCaseIrrelevant | shortcodes/campaign/campaign-goal-amount.php:24 | Two PHP arrays whose entries, in iteration order, differ only in the letter case of keys get the same response. |
| CampaignGoalAmount.QueryIffId | shortcodes/campaign/campaign-goal-amount.php:30-44 | A query is sent exactly when the id is not PHP-empty. At most one is sent: the Campaign `getsingle` for that id among active campaigns, returning name, title, end date and goal revenue, with a nested Contribution query on `$value.id`. |
| CampaignGoalAmount.FailuresAlike | shortcodes/campaign/campaign-goal-amount.php:43-51 | An exception, an empty result and an error flag all give the same response, "Campaign not found.". |
| CampaignGoalAmount.OnlyGoalRevenueMatters | shortcodes/campaign/campaign-goal-amount.php:49-55 | Of a campaign that was found, only its goal revenue field reaches the page. |
| CampaignGoalAmount.ZeroIdIsMissing | shortcodes/campaign/campaign-goal-amount.php:30-32 | The ids `ID="0"` and `id=""`, and no attributes at all, get the missing-id message and send no query. |
| CampaignGoalAmount.LastIdWins | shortcodes/campaign/campaign-goal-amount.php:24-33 | Given `id="7"` then `Id="42"`, the campaign queried is "42". |
| CampaignGoalAmount.OverwrittenKeyKeepsPlace | shortcodes/campaign/campaign-goal-amount.php:24-33 | The array `['id' => '1', 'ID' => '2', 'id' => '3']` has entries `id` = "3" then `ID` = "2"; the campaign queried is "2". |
| Scenarios.TagsDistinct | shortcodes/civicrm-event-listing.php:20-22 | The two handlers register under different tags: `civicrm-event-listing` here and `ux_campaign_goal_amount` at shortcodes/campaign/campaign-goal-amount.php:11-13. |
| Scenarios.MidnightStartShowsDateOnly | shortcodes/civicrm-event-listing.php:70-77 | An event starting 2024-03-10 00:00:00 with no end shows "10 March 2024". |
| Scenarios.SameDayShowsEndTime | shortcodes/civicrm-event-listing.php:81-82 | From 2024-03-10 09:00 to 17:00 the same day shows "10 March 2024 9:00 am to 5:00 pm". |
| Scenarios.OtherDayShowsEndDate | shortcodes/civicrm-event-listing.php:83-84 | From 2024-03-10 09:00 to 2024-03-12 09:00 shows "10 March 2024 9:00 am to 12 March 2024 9:00 am". |
| Scenarios.TwoMonthGroups | shortcodes/civicrm-event-listing.php:53-61 | Rows starting 5 January, 20 January and 1 February 2024 give a "January, 2024" heading with two items, then a "February, 2024" heading with one. |

## Left out

- The shortcode registry, manager and handler interface, and the plugin bootstrap: they only wire handlers to the host and are not part of this model. `init_setup` only stores the manager.
- The `shortcode_atts` filter hook: it runs plugin code that is not visible here.
- The `(array)` cast of non-array attributes. WordPress passes `""` when a tag has no attributes. The cast turns that into one pair with key `0`, which never matches `id`, just like an empty attribute list.
- `civicrm_api3`, `home_url` and `CRM_Utils_Money::format` are parameters. The value of the `(float)` cast and the locale's money format are therefore not modelled.
- The server-side meaning of the query, such as "now", the public and active filters and the sort, is shown only as the parameters sent. The sort order is an assumption of `EventListing.MonthsAscending`.
- `DateTime::createFromFormat` is replaced by a date record already parsed from `Y-m-d H:i:s`. Its failure on malformed text is not modelled. Neither are days that do not exist in their month, or years beyond four digits.
- Format directives other than `j F Y g h i a` are not modelled. The handler uses no others.
- HTML escaping is not modelled: the source does none, and the markup is plain string concatenation.
- PHP's undefined-index notice when attributes lack `types` has no effect on output, so it is not modelled.
- EventListing.ShortcodeName: states that the tag is well formed, not its exact spelling, which is the function's value.
- CampaignGoalAmount.ShortcodeName: states that the tag is well formed, not its exact spelling, which is the function's value.

=== FILE: campaign_goal_amount.dfy ===
/** The `ux_campaign_goal_amount` shortcode: normalise the attribute keys, insist
    on a campaign id, fetch that campaign with one `getsingle` query, and show its
    goal revenue through the CRM's money formatter. */
module CampaignGoalAmount {
  import opened Php
  import opened Crm

  /** The tag this handler is registered under. */
  function ShortcodeName(): (name: string)
    ensures IsTagName(name)
  {
    "ux_campaign_goal_amount"
  }

  const MissingId: string := "Please provide the campaign id."
  const NotFound: string := "Campaign not found."

  /** The outcome of `civicrm_api3('Campaign', 'getsingle', ...)` as the handler
      sees it: an exception, or the returned array's fields (none when nothing
      came back). */
  datatype CampaignResult = ApiException | Returned(fields: map<string, string>)

  /** `shortcode_atts(['id' => ''], $atts)['id']` once the keys are lower-cased:
      the value of the last attribute, in the array's iteration order, whose key
      is "id" in any letter case, and the default "" when there is none. */
  function CampaignId(atts: Attrs): (id: string)
    ensures (forall i :: 0 <= i < |atts| ==> Lower(atts[i].0) != "id") ==> id == ""
    ensures (exists i :: 0 <= i < |atts| && Lower(atts[i].0) == "id") ==>
              exists i :: 0 <= i < |atts| && Lower(atts[i].0) == "id" && atts[i].1 == id
                          && forall j :: i < j < |atts| ==> Lower(atts[j].0) != "id"
  {
    assert Lower("id") == "id";
    LookupLowered(atts, "id");
    match Lookup(ChangeKeyCaseLower(atts), "id")
    case None => ""
    case Some(v) => v
  }

  /** The parameter array of the campaign query: the campaign with this id among
      the active ones, four of its fields, and its contributions fetched in the
      same round trip. */
  function CampaignParams(id: string): Params
  {
    map[
      "sequential" := Int(1),
      "return" := List(["name", "title", "end_date", "goal_revenue"]),
      "id" := Str(id),
      "is_active" := Int(1),
      "api.Contribution.get" := Assoc(map["sequential" := Int(1), "campaign_id" := Str("$value.id")])
    ]
  }

  function CampaignQuery(id: string): Query {
    Query("Campaign", "getsingle", CampaignParams(id))
  }

  /** `empty($result) || $result['is_error']`, where a caught exception left `$result = []`. */
  predicate Failed(result: CampaignResult) {
    result.ApiException? || result.fields == map[] || Truthy(Get(result.fields, "is_error"))
  }

  /** `$result['goal_revenue']`; an absent field reads as null, which the `(float)`
      cast turns into 0.0 just as it does the empty string. */
  function GoalRevenue(fields: map<string, string>): string
  {
    match Get(fields, "goal_revenue")
    case None => ""
    case Some(v) => v
  }

  /** `shortcode_callback`. `api` stands for `civicrm_api3` and `formatMoney` for
      `CRM_Utils_Money::format` applied after the `(float)` cast. */
  function ShortcodeCallback(atts: Attrs, api: Query -> CampaignResult, formatMoney: string -> string): (r: Response)
    ensures IsEmpty(CampaignId(atts)) ==> r == Response(MissingId, [])
    ensures !IsEmpty(CampaignId(atts)) ==> r.queries == [CampaignQuery(CampaignId(atts))]
    ensures !IsEmpty(CampaignId(atts)) && Failed(api(CampaignQuery(CampaignId(atts)))) ==> r.output == NotFound
    ensures !IsEmpty(CampaignId(atts)) && !Failed(api(CampaignQuery(CampaignId(atts)))) ==>
              r.output == formatMoney(GoalRevenue(api(CampaignQuery(CampaignId(atts))).fields))
  {
    var id := CampaignId(atts);
    if IsEmpty(id) then Response(MissingId, [])
    else
      var query := CampaignQuery(id);
      var result := api(query);
      if Failed(result) then Response(NotFound, [query])
      else Response(formatMoney(GoalRevenue(result.fields)), [query])
  }

  // ------------------------------------------------------------------ properties

  /** Attribute arrays that agree once their keys are lower-cased. */
  predicate SameUpToKeyCase(a: Attrs, b: Attrs) {
    |a| == |b| && forall i :: 0 <= i < |a| ==> Lower(a[i].0) == Lower(b[i].0) && a[i].1 == b[i].1
  }

  /** The letter case of the attribute keys never changes the response:
      `ID="5"`, `Id="5"` and `id="5"` are one request. */
  lemma KeyCaseIrrelevant(a: Attrs, b: Attrs, api: Query -> CampaignResult, formatMoney: string -> string)
    requires SameUpToKeyCase(a, b)
    ensures ShortcodeCallback(a, api, formatMoney) == ShortcodeCallback(b, api, formatMoney)
  {
    KeyCaseIsIrrelevant(a, b);
  }

  /** A query is sent exactly when the id is not PHP-empty, and it is the one
      campaign query for that id. */
  lemma QueryIffId(atts: Attrs, api: Query -> CampaignResult, formatMoney: string -> string)
    ensures var r := ShortcodeCallback(atts, api, formatMoney);
            && (r.queries == [] <==> IsEmpty(CampaignId(atts)))
            && |r.queries| <= 1
            && (r.queries != [] ==>
                  var q := r.queries[0];
                  && q.entity == "Campaign" && q.action == "getsingle"
                  && "id" in q.params && q.params["id"] == Str(CampaignId(atts))
                  && "is_active" in q.params && q.params["is_active"] == Int(1)
                  && "return" in q.params && q.params["return"] == List(["name", "title", "end_date", "goal_revenue"])
                  && "api.Contribution.get" in q.params
                  && q.params["api.Contribution.get"] == Assoc(map["sequential" := Int(1), "campaign_id" := Str("$value.id")]))
  {
  }

  /** An exception, an empty result and a result with the error flag set are
      indistinguishable to the page author. */
  lemma FailuresAlike(atts: Attrs, api1: Query -> CampaignResult, api2: Query -> CampaignResult, formatMoney: string -> string)
    requires !IsEmpty(CampaignId(atts))
    requires Failed(api1(CampaignQuery(CampaignId(atts)))) && Failed(api2(CampaignQuery(CampaignId(atts))))
    ensures ShortcodeCallback(atts, api1, formatMoney) == ShortcodeCallback(atts, api2, formatMoney)
    ensures ShortcodeCallback(atts, api1, formatMoney).output == NotFound
  {
  }

  /** Of a campaign that was found, only its goal revenue reaches the page. */
  lemma OnlyGoalRevenueMatters(atts: Attrs, api1: Query -> CampaignResult, api2: Query -> CampaignResult, formatMoney: string -> string)
    requires !IsEmpty(CampaignId(atts))
    requires var q := CampaignQuery(CampaignId(atts));
             && !Failed(api1(q)) && !Failed(api2(q))
             && Get(api1(q).fields, "goal_revenue") == Get(api2(q).fields, "goal_revenue")
    ensures ShortcodeCallback(atts, api1, formatMoney) == ShortcodeCallback(atts, api2, formatMoney)
  {
  }

  /** A found campaign without a `goal_revenue` field answers like one whose
      `goal_revenue` is "": the `(float)` cast reads null and "" alike. */
  lemma NullRevenueIsEmptyRevenue(atts: Attrs, api1: Query -> CampaignResult, api2: Query -> CampaignResult,
                                  formatMoney: string -> string)
    requires !IsEmpty(CampaignId(atts))
    requires var q := CampaignQuery(CampaignId(atts));
             && !Failed(api1(q)) && !Failed(api2(q))
             && "goal_revenue" !in api1(q).fields
             && "goal_revenue" in api2(q).fields && api2(q).fields["goal_revenue"] == ""
    ensures ShortcodeCallback(atts, api1, formatMoney) == ShortcodeCallback(atts, api2, formatMoney)
  {
  }

  /** The message for a missing id is also the answer to `id=""` and to `id="0"`,
      which PHP's `empty()` counts as empty; no query is sent. */
  lemma ZeroIdIsMissing(api: Query -> CampaignResult, formatMoney: string -> string)
    ensures ShortcodeCallback([("ID", "0")], api, formatMoney) == Response(MissingId, [])
    ensures ShortcodeCallback([("id", "")], api, formatMoney) == Response(MissingId, [])
    ensures ShortcodeCallback([], api, formatMoney) == Response(MissingId, [])
  {
    assert Lower("ID") == "id";
    assert Lower("id") == "id";
  }

  /** When the id is given twice, in any letter case, the later one is used. */
  lemma LastIdWins(api: Query -> CampaignResult, formatMoney: string -> string)
    ensures ShortcodeCallback([("id", "7"), ("Id", "42")], api, formatMoney).queries == [CampaignQuery("42")]
  {
    assert Lower("Id") == "id";
    assert Lower("id") == "id";
  }

  /** `['id' => '1', 'ID' => '2', 'id' => '3']` is the PHP array whose entries
      are `id` = "3" and then `ID` = "2": the repeated `id` keeps its first
      place. Lower-casing walks that order, so the campaign queried is "2". */
  lemma OverwrittenKeyKeepsPlace(api: Query -> CampaignResult, formatMoney: string -> string)
    ensures ShortcodeCallback([("id", "3"), ("ID", "2")], api, formatMoney).queries == [CampaignQuery("2")]
  {
    assert Lower("ID") == "id";
    assert Lower("id") == "id";
  }
}

=== FILE: crm.dfy ===
/** The boundary to the CRM: the parameter values a handler hands to
    `civicrm_api3(entity, action, params)`, and a handler's response together
    with the log of the queries it issued. */
module Crm {

  /** A value in a query's parameter array. */
  datatype Param =
    | Int(n: int)
    | Str(s: string)
    | List(items: seq<string>)
    | Assoc(entries: map<string, Param>)

  type Params = map<string, Param>

  datatype Query = Query(entity: string, action: string, params: Params)

  /** What a shortcode callback returns to the host, and the queries it sent
      to the CRM on the way, in order. */
  datatype Response = Response(output: string, queries: seq<Query>)

  /** PHP_INT_MAX on a 64-bit build: 2^63 - 1. */
  const PhpIntMax: int := 0x7fff_ffff_ffff_ffff

  /** A conservative shape for a shortcode tag: non-empty, made of lower-case
      letters, digits, `-` and `_`. The host accepts more (upper-case letters and
      most punctuation); a tag of this shape is accepted by any host. */
  predicate IsTagName(s: string) {
    && |s| > 0
    && forall i :: 0 <= i < |s| ==> ('a' <= s[i] <= 'z' || '0' <= s[i] <= '9' || s[i] == '-' || s[i] == '_')
  }
}

=== FILE: date_format.dfy ===
/** Calendar dates as the event handler reads them (`Y-m-d H:i:s` strings parsed
    into fields), and the directives of PHP's `DateTime::format` that the
    handler uses: `j` `F` `Y` `g` `h` `i` `a`. */
module DateFormat {

  datatype DateTime = DateTime(year: nat, month: nat, day: nat, hour: nat, minute: nat, second: nat)

  /** A well-formed `Y-m-d H:i:s` value: `Y` reads at most four digits. */
  ghost predicate WellFormed(d: DateTime) {
    && d.year <= 9999
    && 1 <= d.month <= 12
    && 1 <= d.day <= 31
    && d.hour < 24
    && d.minute < 60
    && d.second < 60
  }

  type Date = d: DateTime | WellFormed(d) witness DateTime(1970, 1, 1, 0, 0, 0)

  /** The two dates fall on the same calendar day. */
  predicate SameDay(a: Date, b: Date) {
    a.day == b.day && a.month == b.month && a.year == b.year
  }

  /** The two dates fall in the same month of the same year. */
  predicate SameMonth(a: Date, b: Date) {
    a.month == b.month && a.year == b.year
  }

  // ---------------------------------------------------------------- digits

  function DigitChar(n: nat): (c: char)
    requires n < 10
    ensures '0' <= c <= '9'
  {
    ('0' as int + n) as char
  }

  function DigitValue(c: char): nat {
    if '0' <= c <= '9' then c as int - '0' as int else 0
  }

  predicate AllDigits(s: string) {
    forall i :: 0 <= i < |s| ==> '0' <= s[i] <= '9'
  }

  /** Decimal notation without leading zeros (the `j` and `g` directives). */
  function Decimal(n: nat): (s: string)
    ensures 1 <= |s|
    ensures AllDigits(s)
    decreases n
  {
    if n < 10 then [DigitChar(n)] else Decimal(n / 10) + [DigitChar(n % 10)]
  }

  /** The last `width` decimal digits of `n`, zero-padded (`Y`, `h`, `i`). */
  function Padded(n: nat, width: nat): (s: string)
    ensures |s| == width
    ensures AllDigits(s)
    decreases width
  {
    if width == 0 then [] else Padded(n / 10, width - 1) + [DigitChar(n % 10)]
  }

  /** Reads a string of decimal digits back as a number. */
  function ParseDigits(s: string): nat
    decreases |s|
  {
    if s == [] then 0 else 10 * ParseDigits(s[..|s| - 1]) + DigitValue(s[|s| - 1])
  }

  function Pow10(k: nat): (p: nat)
    ensures p >= 1
  {
    if k == 0 then 1 else 10 * Pow10(k - 1)
  }

  lemma {:induction false} ParseDecimal(n: nat)
    ensures ParseDigits(Decimal(n)) == n
    decreases n
  {
    if n >= 10 {
      var s := Decimal(n);
      ParseDecimal(n / 10);
      assert s[..|s| - 1] == Decimal(n / 10);
    }
  }

  lemma {:induction false} ParsePadded(n: nat, width: nat)
    requires n < Pow10(width)
    ensures ParseDigits(Padded(n, width)) == n
    decreases width
  {
    if width > 0 {
      var s := Padded(n, width);
      ParsePadded(n / 10, width - 1);
      assert s[..|s| - 1] == Padded(n / 10, width - 1);
    }
  }

  /** Padded digits determine the number when it fits the width. */
  lemma PaddedInjective(n: nat, m: nat, width: nat)
    requires n < Pow10(width) && m < Pow10(width)
    requires Padded(n, width) == Padded(m, width)
    ensures n == m
  {
    ParsePadded(n, width);
    ParsePadded(m, width);
  }

  lemma DecimalInjective(n: nat, m: nat)
    requires Decimal(n) == Decimal(m)
    ensures n == m
  {
    ParseDecimal(n);
    ParseDecimal(m);
  }

  // ---------------------------------------------------------------- month names

  const MonthNames: seq<string> := ["January", "February", "March", "April", "May", "June",
    "July", "August", "September", "October", "November", "December"]

  /** The `F` directive: the full English month name. */
  function MonthName(month: nat): (name: string)
    requires 1 <= month <= 12
    ensures |name| >= 3
    ensures ' ' !in name && ',' !in name
  {
    MonthNames[month - 1]
  }

  /** Reads a full month name back; 0 for anything else. */
  function MonthNumber(name: string): (month: nat)
    ensures month <= 12
  {
    if name == "January" then 1 else if name == "February" then 2
    else if name == "March" then 3 else if name == "April" then 4
    else if name == "May" then 5 else if name == "June" then 6
    else if name == "July" then 7 else if name == "August" then 8
    else if name == "September" then 9 else if name == "October" then 10
    else if name == "November" then 11 else if name == "December" then 12
    else 0
  }

  lemma MonthNameRoundTrip(month: nat)
    requires 1 <= month <= 12
    ensures MonthNumber(MonthName(month)) == month
  {
  }

  // ---------------------------------------------------------------- format

  /** The hour on a 12-hour clock: 0 and 12 both read as 12. */
  function Hour12(hour: nat): (h: nat)
    ensures 1 <= h <= 12
    ensures h % 12 == hour % 12
  {
    if hour % 12 == 0 then 12 else hour % 12
  }

  function AmPm(d: Date): (ap: string)
    ensures |ap| == 2
  {
    if d.hour < 12 then "am" else "pm"
  }

  function Directive(d: Date, c: char): string {
    match c
    case 'j' => Decimal(d.day)
    case 'F' => MonthName(d.month)
    case 'Y' => Padded(d.year, 4)
    case 'g' => Decimal(Hour12(d.hour))
    case 'h' => Padded(Hour12(d.hour), 2)
    case 'i' => Padded(d.minute, 2)
    case 'a' => AmPm(d)
    case _ => [c]
  }

  /** The output of a format string when each character `c` prints `out(c)`. */
  function Expand(out: char -> string, fmt: string): string
    decreases |fmt|
  {
    if fmt == [] then "" else Expand(out, fmt[..|fmt| - 1]) + out(fmt[|fmt| - 1])
  }

  /** What each format character prints for the date `d`. */
  function Directives(d: Date): char -> string {
    c => Directive(d, c)
  }

  /** `$d->format($fmt)`, one directive or literal character at a time. Only the
      seven directives above are interpreted; any other character is copied, which
      is what PHP does for the separators " ", "," and ":" the handler's formats use. */
  function Format(d: Date, fmt: string): string {
    Expand(Directives(d), fmt)
  }

  lemma ConcatAssoc(a: string, b: string, c: string)
    ensures (a + b) + c == a + (b + c)
  {
  }

  /** A format written after another prints its output after the other's. */
  lemma {:induction false} ExpandAppend(out: char -> string, f: string, g: string)
    ensures Expand(out, f + g) == Expand(out, f) + Expand(out, g)
    decreases |g|
  {
    if g == [] {
      assert f + g == f;
    } else {
      var n := |g| - 1;
      assert (f + g)[..|f + g| - 1] == f + g[..n];
      assert (f + g)[|f + g| - 1] == g[n];
      ExpandAppend(out, f, g[..n]);
      ConcatAssoc(Expand(out, f), Expand(out, g[..n]), out(g[n]));
    }
  }

  /** One more format character appends its output. */
  lemma ExpandSnoc(out: char -> string, f: string, x: char)
    ensures Expand(out, f + [x]) == Expand(out, f) + out(x)
  {
    assert (f + [x])[..|f|] == f;
  }

  lemma ExpandOne(out: char -> string, a: char)
    ensures Expand(out, [a]) == out(a)
  {
    assert [a][..0] == [];
  }

  // Expand5 and Expand4 unfold `Expand` on the handler's fixed patterns of five
  // and four characters, so the string-literal proofs stay cheap.

  /** A five-character format prints its five characters' outputs in turn. */
  lemma {:induction false} Expand5(out: char -> string, a: char, b: char, c: char, e: char, f: char)
    ensures Expand(out, [a, b, c, e, f]) == out(a) + out(b) + out(c) + out(e) + out(f)
  {
    ExpandOne(out, a);
    ExpandSnoc(out, [a], b);
    assert [a] + [b] == [a, b];
    ExpandSnoc(out, [a, b], c);
    assert [a, b] + [c] == [a, b, c];
    ExpandSnoc(out, [a, b, c], e);
    assert [a, b, c] + [e] == [a, b, c, e];
    ExpandSnoc(out, [a, b, c, e], f);
    assert [a, b, c, e] + [f] == [a, b, c, e, f];
  }

  /** A four-character format prints its four characters' outputs in turn. */
  lemma {:induction false} Expand4(out: char -> string, a: char, b: char, c: char, e: char)
    ensures Expand(out, [a, b, c, e]) == out(a) + out(b) + out(c) + out(e)
  {
    ExpandOne(out, a);
    ExpandSnoc(out, [a], b);
    assert [a] + [b] == [a, b];
    ExpandSnoc(out, [a, b], c);
    assert [a, b] + [c] == [a, b, c];
    ExpandSnoc(out, [a, b, c], e);
    assert [a, b, c] + [e] == [a, b, c, e];
  }

  lemma FormatAppend(d: Date, f: string, g: string)
    ensures Format(d, f + g) == Format(d, f) + Format(d, g)
  {
    ExpandAppend(Directives(d), f, g);
  }

  // ---------------------------------------------------------------- the fixed formats the handler uses

  /** `j F Y`, e.g. "10 March 2024". */
  function DayMonthYear(d: Date): string {
    Decimal(d.day) + " " + MonthName(d.month) + " " + Padded(d.year, 4)
  }

  /** `F, Y`, e.g. "March, 2024". */
  function MonthYear(d: Date): string {
    MonthName(d.month) + ", " + Padded(d.year, 4)
  }

  /** `g:i a`, e.g. "5:00 pm". */
  function Time(d: Date): string {
    Decimal(Hour12(d.hour)) + ":" + Padded(d.minute, 2) + " " + AmPm(d)
  }

  /** `h:i a`, e.g. "09:05 pm". */
  function PaddedTime(d: Date): string {
    Padded(Hour12(d.hour), 2) + ":" + Padded(d.minute, 2) + " " + AmPm(d)
  }

  /** `j F Y g:i a`, e.g. "10 March 2024 9:00 am". */
  function DayMonthYearTime(d: Date): string {
    DayMonthYear(d) + " " + Time(d)
  }

  lemma DayMonthYearIsFormat(d: Date)
    ensures DayMonthYear(d) == Format(d, "j F Y")
  {
    Expand5(Directives(d), 'j', ' ', 'F', ' ', 'Y');
  }

  lemma MonthYearIsFormat(d: Date)
    ensures MonthYear(d) == Format(d, "F, Y")
  {
    Expand4(Directives(d), 'F', ',', ' ', 'Y');
    assert ", " == [','] + [' '];
  }

  lemma TimeIsFormat(d: Date)
    ensures Time(d) == Format(d, "g:i a")
  {
    var out := Directives(d);
    Expand5(out, 'g', ':', 'i', ' ', 'a');
    assert out('g') == Decimal(Hour12(d.hour));
    assert out('i') == Padded(d.minute, 2);
    assert out('a') == AmPm(d);
  }

  lemma PaddedTimeIsFormat(d: Date)
    ensures PaddedTime(d) == Format(d, "h:i a")
  {
    var out := Directives(d);
    Expand5(out, 'h', ':', 'i', ' ', 'a');
    assert out('h') == Padded(Hour12(d.hour), 2);
    assert out('i') == Padded(d.minute, 2);
    assert out('a') == AmPm(d);
  }

  /** Three formats written one after another print their texts one after another. */
  lemma FormatAppend3(d: Date, f: string, g: string, h: string)
    ensures Format(d, f + g + h) == Format(d, f) + Format(d, g) + Format(d, h)
  {
    FormatAppend(d, f + g, h);
    FormatAppend(d, f, g);
  }

  /** Two formats joined by a space print as the two texts joined by a space. */
  lemma FormatJoin(d: Date, f: string, g: string)
    ensures Format(d, f + " " + g) == Format(d, f) + " " + Format(d, g)
  {
    FormatAppend3(d, f, " ", g);
    ExpandOne(Directives(d), ' ');
  }

  lemma DayMonthYearTimeIsFormat(d: Date)
    ensures DayMonthYearTime(d) == Format(d, "j F Y g:i a")
  {
    assert "j F Y" + " " + "g:i a" == "j F Y g:i a";
    FormatJoin(d, "j F Y", "g:i a");
    DayMonthYearIsFormat(d);
    TimeIsFormat(d);
  }

  // ---------------------------------------------------------------- what the formatted strings tell apart

  /** Two joins whose right parts are equally long split alike. */
  lemma SplitEnd(p: string, q: string, r: string, s: string)
    requires p + q == r + s && |q| == |s|
    ensures p == r && q == s
  {
    assert p == (p + q)[..|p|];
    assert r == (r + s)[..|r|];
  }

  /** The index of the first space in `s`, or `|s|` when there is none. */
  function FirstSpace(s: string): (k: nat)
    ensures k <= |s|
    decreases |s|
  {
    if s == [] then 0 else if s[0] == ' ' then 0 else 1 + FirstSpace(s[1..])
  }

  lemma {:induction false} FirstSpaceAfter(a: string, b: string)
    requires ' ' !in a
    ensures FirstSpace(a + " " + b) == |a|
    decreases |a|
  {
    var s := a + " " + b;
    if a != [] {
      assert s[0] == a[0];
      assert s[1..] == a[1..] + " " + b;
      FirstSpaceAfter(a[1..], b);
    }
  }

  /** Splitting at the first space: two strings `a b` and `c d` with no space
      in `a` or `c` agree only if `a == c` and `b == d`. */
  lemma SplitAtSpace(a: string, b: string, c: string, d: string)
    requires ' ' !in a && ' ' !in c
    requires a + " " + b == c + " " + d
    ensures a == c && b == d
  {
    var s := a + " " + b;
    FirstSpaceAfter(a, b);
    FirstSpaceAfter(c, d);
    assert a == s[..|a|];
    assert c == s[..|c|];
    assert b == s[|a| + 1..];
    assert d == s[|c| + 1..];
  }

  lemma MonthNameInjective(m1: nat, m2: nat)
    requires 1 <= m1 <= 12 && 1 <= m2 <= 12
    requires MonthName(m1) == MonthName(m2)
    ensures m1 == m2
  {
    MonthNameRoundTrip(m1);
    MonthNameRoundTrip(m2);
  }

  lemma YearInjective(y1: nat, y2: nat)
    requires y1 <= 9999 && y2 <= 9999
    requires Padded(y1, 4) == Padded(y2, 4)
    ensures y1 == y2
  {
    assert Pow10(4) == 10000;
    PaddedInjective(y1, y2, 4);
  }

  /** The "F, Y" group label names exactly the (month, year) pair. */
  lemma MonthYearLabelIff(a: Date, b: Date)
    ensures MonthYear(a) == MonthYear(b) <==> SameMonth(a, b)
  {
    if MonthYear(a) == MonthYear(b) {
      SplitEnd(MonthName(a.month) + ", ", Padded(a.year, 4), MonthName(b.month) + ", ", Padded(b.year, 4));
      SplitEnd(MonthName(a.month), ", ", MonthName(b.month), ", ");
      MonthNameInjective(a.month, b.month);
      YearInjective(a.year, b.year);
    }
  }

  lemma DayHasNoSpace(day: nat)
    ensures ' ' !in Decimal(day)
  {
    assert AllDigits(Decimal(day));
  }

  /** Comparing `j F Y` texts, as the handler does, compares calendar days. */
  lemma SameDayIff(a: Date, b: Date)
    ensures DayMonthYear(a) == DayMonthYear(b) <==> SameDay(a, b)
  {
    if DayMonthYear(a) == DayMonthYear(b) {
      var pa, pb := Decimal(a.day) + " " + MonthName(a.month), Decimal(b.day) + " " + MonthName(b.month);
      SplitEnd(pa + " ", Padded(a.year, 4), pb + " ", Padded(b.year, 4));
      SplitEnd(pa, " ", pb, " ");
      DayHasNoSpace(a.day);
      DayHasNoSpace(b.day);
      SplitAtSpace(Decimal(a.day), MonthName(a.month), Decimal(b.day), MonthName(b.month));
      DecimalInjective(a.day, b.day);
      MonthNameInjective(a.month, b.month);
      YearInjective(a.year, b.year);
    }
  }

  /** The two-digit texts "12" and "00". */
  lemma ClockDigits()
    ensures Padded(12, 2) == "12" && Padded(0, 2) == "00"
  {
    assert Padded(1, 1) == "1";
    assert Padded(0, 1) == "0";
  }

  /** At midnight `h:i a` reads "12:00 am". */
  lemma MidnightReads(d: Date)
    requires d.hour == 0 && d.minute == 0
    ensures PaddedTime(d) == "12:00 am"
  {
    ClockDigits();
    assert Hour12(d.hour) == 12 && AmPm(d) == "am";
    MidnightSpelling();
  }

  /** "12:00 am" as the join of its parts; a stated spelling keeps the
      string-literal proofs cheap. */
  lemma MidnightSpelling()
    ensures "12" + ":" + "00" + " " + "am" == "12:00 am"
  {
  }

  /** Two clock readings `h:m ap` with equally long minutes and suffixes agree
      part by part. */
  lemma SplitClock(h: string, m: string, ap: string, h': string, m': string, ap': string)
    requires |m| == |m'| && |ap| == |ap'|
    requires h + ":" + m + " " + ap == h' + ":" + m' + " " + ap'
    ensures h == h' && m == m' && ap == ap'
  {
    SplitEnd(h + ":" + m + " ", ap, h' + ":" + m' + " ", ap');
    SplitEnd(h + ":" + m, " ", h' + ":" + m', " ");
    SplitEnd(h + ":", m, h' + ":", m');
    SplitEnd(h, ":", h', ":");
  }

  /** Only midnight reads "12:00 am" under `h:i a`. */
  lemma ReadsMidnight(d: Date)
    requires PaddedTime(d) == "12:00 am"
    ensures d.hour == 0 && d.minute == 0
  {
    var h, m, ap := Padded(Hour12(d.hour), 2), Padded(d.minute, 2), AmPm(d);
    MidnightSpelling();
    SplitClock(h, m, ap, "12", "00", "am");
    ClockDigits();
    assert Pow10(2) == 100;
    PaddedInjective(Hour12(d.hour), 12, 2);
    PaddedInjective(d.minute, 0, 2);
  }

  /** The handler's midnight test, `h:i a` reading "12:00 am", holds exactly
      when hour and minute are both zero; the seconds play no part. */
  lemma MidnightIff(d: Date)
    ensures PaddedTime(d) == "12:00 am" <==> d.hour == 0 && d.minute == 0
  {
    if d.hour == 0 && d.minute == 0 {
      MidnightReads(d);
    } else if PaddedTime(d) == "12:00 am" {
      ReadsMidnight(d);
    }
  }
}

=== FILE: event_listing.dfy ===
/** The `civicrm-event-listing` shortcode: one query for the upcoming public
    events, then a listing that opens a month heading whenever the "F, Y" label
    of an event's start differs from the previous event's, and renders every
    event as one item with its date range and two links into the CRM. */
module EventListing {
  import opened Php
  import opened DateFormat
  import opened Crm

  /** The tag this handler is registered under. */
  function ShortcodeName(): (name: string)
    ensures IsTagName(name)
  {
    "civicrm-event-listing"
  }

  /** One row of the query's `values`: the fields the handler reads. An absent
      or empty `event_end_date` is `None`. */
  datatype Event = Event(id: string, title: string, summary: string, start: Date, end: Option<Date>)

  /** The outcome of `civicrm_api3('Event', 'get', ...)`: an exception, or the rows. */
  datatype EventResult = ApiException | Values(values: seq<Event>)

  // ------------------------------------------------------------------ the query

  /** `!empty($atts) && $atts['types']`: attributes were given and `types` is a
      truthy string (an absent key reads as null). Keys are NOT lower-cased here. */
  predicate FiltersByType(atts: Attrs) {
    |atts| > 0 && Truthy(Lookup(atts, "types"))
  }

  const BaseKeys: set<string> := {"sequential", "is_public", "is_active", "start_date", "options"}

  /** The parameter array of the event query. */
  function EventParams(atts: Attrs): (p: Params)
    ensures p.Keys == if FiltersByType(atts) then BaseKeys + {"event_type_id"} else BaseKeys
    ensures p["sequential"] == Int(1) && p["is_public"] == Int(1) && p["is_active"] == Int(1)
    ensures p["start_date"] == Assoc(map[">" := Str("now")])
    ensures p["options"] == Assoc(map["sort" := Str("start_date ASC"), "limit" := Int(PhpIntMax)])
    ensures FiltersByType(atts) ==>
              && p["event_type_id"].Assoc?
              && p["event_type_id"].entries.Keys == {"IN"}
              && p["event_type_id"].entries["IN"].List?
              && var types := p["event_type_id"].entries["IN"].items;
                 && Implode(',', types) == Lookup(atts, "types").value
                 && forall i :: 0 <= i < |types| ==> ',' !in types[i]
  {
    var base := map[
      "sequential" := Int(1),
      "is_public" := Int(1),
      "is_active" := Int(1),
      "start_date" := Assoc(map[">" := Str("now")]),
      "options" := Assoc(map["sort" := Str("start_date ASC"), "limit" := Int(PhpIntMax)])
    ];
    if FiltersByType(atts) then
      ImplodeExplode(',', Lookup(atts, "types").value);
      base["event_type_id" := Assoc(map["IN" := List(Explode(',', Lookup(atts, "types").value))])]
    else
      base
  }

  function EventQuery(atts: Attrs): Query {
    Query("Event", "get", EventParams(atts))
  }

  // ------------------------------------------------------------------ one event

  predicate IsMidnight(d: Date) {
    d.hour == 0 && d.minute == 0
  }

  /** The two values `$date_format` takes: "j F Y" and "j F Y g:i a". */
  datatype DateStyle = DateOnly | DateAndTime {
    function Pattern(): string {
      if DateOnly? then "j F Y" else "j F Y g:i a"
    }
  }

  /** A date shown in a style, as `$date->format($date_format)` prints it. */
  function Show(d: Date, style: DateStyle): string {
    match style
    case DateOnly => DayMonthYear(d)
    case DateAndTime => DayMonthYearTime(d)
  }

  lemma ShowIsFormat(d: Date, style: DateStyle)
    ensures Show(d, style) == Format(d, style.Pattern())
  {
    if style.DateOnly? {
      DayMonthYearIsFormat(d);
    } else {
      DayMonthYearTimeIsFormat(d);
    }
  }

  /** The style for the start date, chosen by reading it as "h:i a": a start at
      midnight shows the date only, any other start also shows the time. */
  function StyleFor(start: Date): (style: DateStyle)
    ensures style == DateOnly <==> IsMidnight(start)
  {
    MidnightIff(start);
    if PaddedTime(start) == "12:00 am" then DateOnly else DateAndTime
  }

  /** The text after the start date: nothing without an end date, only the end
      time when the end falls on the start's calendar day, and otherwise the end
      in the START's style. */
  function EndDateText(e: Event): (t: string)
    ensures e.end.None? ==> t == ""
    ensures e.end.Some? && SameDay(e.start, e.end.value) ==> t == " to " + Time(e.end.value)
    ensures e.end.Some? && !SameDay(e.start, e.end.value) ==> t == " to " + Show(e.end.value, StyleFor(e.start))
  {
    match e.end
    case None => ""
    case Some(end) =>
      SameDayIff(end, e.start);
      if DayMonthYear(end) == DayMonthYear(e.start) then " to " + Time(end)
      else " to " + Show(end, StyleFor(e.start))
  }

  /** The bold date range of an item. */
  function DateRange(e: Event): string {
    Show(e.start, StyleFor(e.start)) + EndDateText(e)
  }

  const UrlPath: string := "civicrm/?page=CiviCRM&q=civicrm%2Fevent%2F"
  const UrlTail: string := "&reset=1&id="

  /** The address of an event page of the CRM (`page` is "info" or "register")
      under the site's root URL `home`. */
  function EventUrl(home: string, page: string, id: string): (url: string)
    ensures |url| == |home| + |UrlPath| + |page| + |UrlTail| + |id|
    ensures url[..|home|] == home
    ensures url[|url| - |id|..] == id
  {
    home + UrlPath + page + UrlTail + id
  }

  const LinkOpen: string := "<a target=_blank href=\""
  const MoreInformation: string := "More information"

  /** `get_event_register_link_html`: an anchor to the event's registration page. */
  function RegisterLink(home: string, id: string): (link: string)
    ensures LinkOpen <= link
    ensures Occurs(EventUrl(home, "register", id), link)
    ensures Occurs("Register now", link)
  {
    Occurs3(LinkOpen, EventUrl(home, "register", id), "\">Register now</a>");
    RegisterNowSpelling();
    OccursIn("Register now", LinkOpen + EventUrl(home, "register", id), "\">Register now</a>", 2);
    LinkOpen + EventUrl(home, "register", id) + "\">Register now</a>"
  }

  /** Where "Register now" sits in the link's tail; a stated spelling keeps the
      string-literal proofs cheap. */
  lemma RegisterNowSpelling()
    ensures "\">Register now</a>"[2..14] == "Register now"
  {
  }

  /** `get_event_info_link_html`: an anchor showing `text` that leads to the
      event's info page. */
  function InfoLink(home: string, id: string, text: string): (link: string)
    ensures LinkOpen <= link
    ensures Occurs(EventUrl(home, "info", id), link)
    ensures Occurs(text, link)
  {
    Framed(LinkOpen, EventUrl(home, "info", id), "\">", text, "</a>");
    Occurs5(LinkOpen, EventUrl(home, "info", id), "\">", text, "</a>");
    LinkOpen + EventUrl(home, "info", id) + "\">" + text + "</a>"
  }

  /** Two addresses built from one prefix, pages that are equal or differ in
      their first character, and one tail, agree only for the same page and id. */
  lemma Unjoin(pre: string, p: string, q: string, tail: string, x: string, y: string)
    requires |p| > 0 && |q| > 0 && (p == q || p[0] != q[0])
    requires pre + p + tail + x == pre + q + tail + y
    ensures p == q && x == y
  {
    var u := pre + p + tail + x;
    assert u[|pre|] == p[0];
    assert (pre + q + tail + y)[|pre|] == q[0];
    assert x == u[|pre| + |p| + |tail|..];
    assert y == (pre + q + tail + y)[|pre| + |q| + |tail|..];
  }

  /** Under one site, an event page address names the page and the event: two
      addresses agree only for the same page of the same event. */
  lemma EventUrlInjective(home: string, p: string, q: string, id1: string, id2: string)
    requires p in {"info", "register"} && q in {"info", "register"}
    requires EventUrl(home, p, id1) == EventUrl(home, q, id2)
    ensures p == q && id1 == id2
  {
    Unjoin(home + UrlPath, p, q, UrlTail, id1, id2);
  }

  /** A register link never equals an info link: under one site they point at
      different pages, whatever the ids and the link text. */
  lemma LinksDiffer(home: string, id1: string, id2: string, text: string)
    ensures RegisterLink(home, id1) != InfoLink(home, id2, text)
  {
    var j := |LinkOpen| + |home| + |UrlPath|;
    assert RegisterLink(home, id1)[j] == 'r';
    assert InfoLink(home, id2, text)[j] == 'i';
  }

  /** A register link names its event: equal links are for the same id. */
  lemma RegisterLinkInjective(home: string, id1: string, id2: string)
    requires RegisterLink(home, id1) == RegisterLink(home, id2)
    ensures id1 == id2
  {
    var u1, u2 := EventUrl(home, "register", id1), EventUrl(home, "register", id2);
    SplitEnd(LinkOpen + u1, "\">Register now</a>", LinkOpen + u2, "\">Register now</a>");
    assert u1 == (LinkOpen + u1)[|LinkOpen|..];
    assert u2 == (LinkOpen + u2)[|LinkOpen|..];
    EventUrlInjective(home, "register", "register", id1, id2);
  }

  const ItemOpen: string := "<div class='civicrm-event-listing-item'>"

  /** The heading of an item: the title, linked to the event's info page. */
  function TitleLine(e: Event, home: string): string {
    "<h3>" + InfoLink(home, e.id, e.title) + "</h3>"
  }

  /** The bold date range followed by the register link. */
  function DateLine(e: Event, home: string): string {
    "<p><b>" + DateRange(e) + "</b> - " + RegisterLink(home, e.id) + "</p>"
  }

  /** The summary followed by a second info link. */
  function SummaryLine(e: Event, home: string): string {
    "<p>" + e.summary + " " + InfoLink(home, e.id, MoreInformation) + "</p>"
  }

  /** `get_event_item_html`: the three lines of an event inside one item container. */
  function ItemHtml(e: Event, home: string): (h: string)
    ensures ItemOpen <= h
    ensures |h| >= 6 && h[|h| - 6..] == "</div>"
  {
    Framed(ItemOpen, TitleLine(e, home), DateLine(e, home), SummaryLine(e, home), "</div>");
    ItemOpen + TitleLine(e, home) + DateLine(e, home) + SummaryLine(e, home) + "</div>"
  }

  /** `n` appears somewhere in `h`. */
  predicate Occurs(n: string, h: string) {
    exists k :: 0 <= k <= |h| && n <= h[k..]
  }

  lemma OccursSelf(n: string)
    ensures Occurs(n, n)
  {
    assert n <= n[0..];
  }

  /** The middle three of five joined texts appear together in the join. */
  lemma OccursMiddle(a: string, b: string, c: string, d: string, e: string)
    ensures Occurs(b + c + d, a + b + c + d + e)
  {
    var h := a + b + c + d + e;
    assert b + c + d <= h[|a|..];
  }

  /** A text found at offset `k` of the tail is found in the whole join. */
  lemma OccursIn(n: string, a: string, b: string, k: nat)
    requires k + |n| <= |b| && b[k..k + |n|] == n
    ensures Occurs(n, a + b)
  {
    assert n <= (a + b)[|a| + k..];
  }

  lemma OccursTrans(n: string, m: string, h: string)
    requires Occurs(n, m) && Occurs(m, h)
    ensures Occurs(n, h)
  {
    var i :| 0 <= i <= |m| && n <= m[i..];
    var k :| 0 <= k <= |h| && m <= h[k..];
    assert n <= h[k + i..];
  }

  // Occurs3 and Occurs5 name the join's length, so the string-literal proofs
  // stay cheap: one call gives every part's position at once.

  /** Each of three joined texts appears in the join. */
  lemma Occurs3(a: string, b: string, c: string)
    ensures Occurs(a, a + b + c) && Occurs(b, a + b + c) && Occurs(c, a + b + c)
  {
    var h := a + b + c;
    assert a <= h[0..];
    assert b <= h[|a|..];
    assert c <= h[|a + b|..];
  }

  /** Each of five joined texts appears in the join. */
  lemma Occurs5(a: string, b: string, c: string, d: string, e: string)
    ensures var h := a + b + c + d + e;
            Occurs(a, h) && Occurs(b, h) && Occurs(c, h) && Occurs(d, h) && Occurs(e, h)
  {
    var h := a + b + c + d + e;
    assert a <= h[0..];
    assert b <= h[|a|..];
    assert c <= h[|a + b|..];
    assert d <= h[|a + b + c|..];
    assert e <= h[|a + b + c + d|..];
  }

  /** Whatever appears in one of the three lines of an item appears in the item. */
  lemma InItem(n: string, e: Event, home: string)
    requires Occurs(n, TitleLine(e, home)) || Occurs(n, DateLine(e, home)) || Occurs(n, SummaryLine(e, home))
    ensures Occurs(n, ItemHtml(e, home))
  {
    var t, d, s := TitleLine(e, home), DateLine(e, home), SummaryLine(e, home);
    Occurs5(ItemOpen, t, d, s, "</div>");
    if Occurs(n, t) {
      OccursTrans(n, t, ItemHtml(e, home));
    } else if Occurs(n, d) {
      OccursTrans(n, d, ItemHtml(e, home));
    } else {
      OccursTrans(n, s, ItemHtml(e, home));
    }
  }

  /** A join of five texts begins with the first and ends with the last. */
  lemma Framed(a: string, b: string, c: string, d: string, e: string)
    ensures a <= a + b + c + d + e
    ensures var h := a + b + c + d + e; |h| >= |e| && h[|h| - |e|..] == e
  {
    var h := a + b + c + d + e;
    assert h == (a + b + c + d) + e;
    assert h[|h| - |e|..] == e;
  }

  /** An item's heading is the title linked to the event's info page. */
  lemma ItemShowsTitle(e: Event, home: string)
    ensures Occurs("<h3>" + InfoLink(home, e.id, e.title) + "</h3>", ItemHtml(e, home))
  {
    OccursSelf(TitleLine(e, home));
    InItem(TitleLine(e, home), e, home);
  }

  /** An item shows one paragraph holding its date range in bold, then " - "
      and the register link; each of the two also occurs on its own. */
  lemma ItemShowsDates(e: Event, home: string)
    ensures Occurs("<p><b>" + DateRange(e) + "</b> - " + RegisterLink(home, e.id) + "</p>", ItemHtml(e, home))
    ensures Occurs(DateRange(e), ItemHtml(e, home))
    ensures Occurs(RegisterLink(home, e.id), ItemHtml(e, home))
  {
    OccursSelf(DateLine(e, home));
    InItem(DateLine(e, home), e, home);
    Occurs5("<p><b>", DateRange(e), "</b> - ", RegisterLink(home, e.id), "</p>");
    InItem(DateRange(e), e, home);
    InItem(RegisterLink(home, e.id), e, home);
  }

  /** An item shows its summary directly followed by the "More information" link. */
  lemma ItemShowsSummary(e: Event, home: string)
    ensures Occurs(e.summary + " " + InfoLink(home, e.id, MoreInformation), ItemHtml(e, home))
  {
    var n := e.summary + " " + InfoLink(home, e.id, MoreInformation);
    OccursMiddle("<p>", e.summary, " ", InfoLink(home, e.id, MoreInformation), "</p>");
    InItem(n, e, home);
  }

  /** `get_event_item_html` as the listing calls it: the site's root URL fixed. */
  function ItemRenderer(home: string): Event -> string {
    e => ItemHtml(e, home)
  }

  // ------------------------------------------------------------------ the listing

  /** The "F, Y" label of a start date, e.g. "March, 2024". */
  function MonthLabel(d: Date): string {
    MonthYear(d)
  }

  /** A month label is never PHP-empty: it is at least a month name long and
      not the text "0". */
  lemma LabelNotEmpty(d: Date)
    ensures !IsEmpty(MonthLabel(d))
  {
    assert |MonthName(d.month)| >= 3;
  }

  /** The i-th event begins a new month group: it is the first, or its start lies
      in another (month, year) than the previous event's. */
  predicate NewMonth(events: seq<Event>, i: nat)
    requires i < |events|
  {
    i == 0 || !SameMonth(events[i - 1].start, events[i].start)
  }

  /** A piece of the listing body, in output order. A heading carries the start
      date of the event that opened its group and shows that date's "F, Y" label. */
  datatype Fragment = Heading(month: Date) | Item(event: Event)

  /** What the i-th event adds to the body: its month heading when it starts a
      new month, then its item. */
  function StepFragments(events: seq<Event>, i: nat): seq<Fragment>
    requires i < |events|
  {
    (if NewMonth(events, i) then [Heading(events[i].start)] else []) + [Item(events[i])]
  }

  /** The body for the first n events. */
  function FragmentsUpTo(events: seq<Event>, n: nat): seq<Fragment>
    requires n <= |events|
    decreases n
  {
    if n == 0 then [] else FragmentsUpTo(events, n - 1) + StepFragments(events, n - 1)
  }

  lemma FragmentsUpToStep(events: seq<Event>, n: nat)
    requires 0 < n <= |events|
    ensures FragmentsUpTo(events, n) == FragmentsUpTo(events, n - 1) + StepFragments(events, n - 1)
  {
  }

  /** The body of the listing: each event preceded by a heading exactly when it
      starts a new month. */
  function Fragments(events: seq<Event>): seq<Fragment> {
    FragmentsUpTo(events, |events|)
  }

  function HeadingHtml(caption: string): string {
    "<h2>" + caption + "</h2>"
  }

  function RenderFragment(f: Fragment, item: Event -> string): string {
    match f
    case Heading(d) => HeadingHtml(MonthLabel(d))
    case Item(e) => item(e)
  }

  function Render(fs: seq<Fragment>, item: Event -> string): string
    decreases |fs|
  {
    if fs == [] then "" else Render(fs[..|fs| - 1], item) + RenderFragment(fs[|fs| - 1], item)
  }

  const WrapOpen: string := "<div class=\"civicrm-event-listing-wrap\">"
  const WrapClose: string := "</div>"

  /** The whole listing for the rows the query returned. */
  function Listing(events: seq<Event>, home: string): string {
    WrapOpen + Render(Fragments(events), ItemRenderer(home)) + WrapClose
  }

  lemma {:induction false} RenderAppend(a: seq<Fragment>, b: seq<Fragment>, item: Event -> string)
    ensures Render(a + b, item) == Render(a, item) + Render(b, item)
    decreases |b|
  {
    if b == [] {
      assert a + b == a;
    } else {
      var n := |b| - 1;
      assert (a + b)[..|a + b| - 1] == a + b[..n];
      assert (a + b)[|a + b| - 1] == b[n];
      RenderAppend(a, b[..n], item);
      ConcatAssoc(Render(a, item), Render(b[..n], item), RenderFragment(b[n], item));
    }
  }

  /** The markup the i-th event adds to the listing. */
  function StepHtml(events: seq<Event>, i: nat, item: Event -> string): string
    requires i < |events|
  {
    (if NewMonth(events, i) then HeadingHtml(MonthLabel(events[i].start)) else "") + item(events[i])
  }

  lemma RenderStep(events: seq<Event>, i: nat, item: Event -> string)
    requires i < |events|
    ensures Render(StepFragments(events, i), item) == StepHtml(events, i, item)
  {
    var it := [Item(events[i])];
    assert Render(it, item) == item(events[i]) by {
      assert it[..0] == [];
    }
    if NewMonth(events, i) {
      var h := [Heading(events[i].start)];
      assert Render(h, item) == HeadingHtml(MonthLabel(events[i].start)) by {
        assert h[..0] == [];
      }
      RenderAppend(h, it, item);
    } else {
      assert StepFragments(events, i) == it;
    }
  }

  /** One more event adds its step's markup to the rendered fragments. */
  lemma RenderUpToStep(events: seq<Event>, n: nat, item: Event -> string)
    requires 0 < n <= |events|
    ensures Render(FragmentsUpTo(events, n), item)
            == Render(FragmentsUpTo(events, n - 1), item) + StepHtml(events, n - 1, item)
  {
    FragmentsUpToStep(events, n);
    RenderStep(events, n - 1, item);
    RenderJoin(FragmentsUpTo(events, n), FragmentsUpTo(events, n - 1), StepFragments(events, n - 1),
               item, StepHtml(events, n - 1, item));
  }

  lemma RenderJoin(all: seq<Fragment>, before: seq<Fragment>, step: seq<Fragment>,
                   item: Event -> string, html: string)
    requires all == before + step && Render(step, item) == html
    ensures Render(all, item) == Render(before, item) + html
  {
    RenderAppend(before, step, item);
  }

  /** Appending a step's heading and item to the output appends the step to the body. */
  lemma AppendStep(open: string, body: string, heading: string, html: string)
    ensures open + body + heading + html == open + (body + (heading + html))
  {
  }

  /** The handler's test on the carried label, `empty($current) || $current !== $date`,
      holds exactly when the event starts a new month. */
  lemma HeadingTest(events: seq<Event>, i: nat, current: string)
    requires i < |events|
    requires current == if i == 0 then "" else MonthLabel(events[i - 1].start)
    ensures (IsEmpty(current) || current != MonthLabel(events[i].start)) <==> NewMonth(events, i)
  {
    if i > 0 {
      LabelNotEmpty(events[i - 1].start);
      MonthYearLabelIff(events[i - 1].start, events[i].start);
    }
  }

  /** The listing body the handler's loop has built after n events: each step's
      heading, when the event opens a month, and item, in order. */
  ghost function BodyUpTo(events: seq<Event>, n: nat, item: Event -> string): string
    requires n <= |events|
    decreases n
  {
    if n == 0 then "" else BodyUpTo(events, n - 1, item) + StepHtml(events, n - 1, item)
  }

  /** The loop's body is the rendering of the fragment sequence. */
  lemma {:induction false} BodyIsRender(events: seq<Event>, n: nat, item: Event -> string)
    requires n <= |events|
    ensures BodyUpTo(events, n, item) == Render(FragmentsUpTo(events, n), item)
    decreases n
  {
    if n > 0 {
      BodyIsRender(events, n - 1, item);
      BodyIsRenderStep(events, n, item);
    }
  }

  lemma BodyIsRenderStep(events: seq<Event>, n: nat, item: Event -> string)
    requires 0 < n <= |events|
    requires BodyUpTo(events, n - 1, item) == Render(FragmentsUpTo(events, n - 1), item)
    ensures BodyUpTo(events, n, item) == Render(FragmentsUpTo(events, n), item)
  {
    BodyUpToStep(events, n, item);
    RenderUpToStep(events, n, item);
    JoinEqual(BodyUpTo(events, n, item), Render(FragmentsUpTo(events, n), item),
              BodyUpTo(events, n - 1, item), Render(FragmentsUpTo(events, n - 1), item),
              StepHtml(events, n - 1, item));
  }

  lemma JoinEqual(x: string, y: string, a: string, b: string, step: string)
    requires x == a + step && y == b + step && a == b
    ensures x == y
  {
  }

  lemma BodyUpToStep(events: seq<Event>, n: nat, item: Event -> string)
    requires 0 < n <= |events|
    ensures BodyUpTo(events, n, item) == BodyUpTo(events, n - 1, item) + StepHtml(events, n - 1, item)
  {
  }

  /** One pass of the handler's loop, stated on the loop's own test: when the
      carried label differs from the i-th event's, the output so far, that
      label's heading and the item extend the body to i + 1 events; when it
      is the same, the output so far and the item do. */
  lemma ListingStep(events: seq<Event>, i: nat, item: Event -> string,
                    current: string, date: string, html: string, before: string)
    requires i < |events|
    requires current == if i == 0 then "" else MonthLabel(events[i - 1].start)
    requires date == MonthLabel(events[i].start)
    requires html == item(events[i])
    requires before == WrapOpen + BodyUpTo(events, i, item)
    ensures IsEmpty(current) || current != date ==>
              before + HeadingHtml(date) + html == WrapOpen + BodyUpTo(events, i + 1, item)
    ensures !IsEmpty(current) && current == date ==>
              before + html == WrapOpen + BodyUpTo(events, i + 1, item)
  {
    var body := BodyUpTo(events, i, item);
    HeadingTest(events, i, current);
    BodyUpToStep(events, i + 1, item);
    if NewMonth(events, i) {
      AppendStep(WrapOpen, body, HeadingHtml(date), html);
    } else {
      assert StepHtml(events, i, item) == html;
      ConcatAssoc(WrapOpen, body, html);
    }
  }

  /** One pass of the loop in `shortcode_callback`: open a heading when the
      event's "F, Y" label differs from the carried one (or none is carried),
      then append the event's item. */
  method AddEvent(events: seq<Event>, i: nat, item: Event -> string, currentGroup: string, output: string)
    returns (group: string, extended: string)
    requires i < |events|
    requires currentGroup == if i == 0 then "" else MonthLabel(events[i - 1].start)
    requires output == WrapOpen + BodyUpTo(events, i, item)
    ensures group == MonthLabel(events[i].start)
    ensures extended == WrapOpen + BodyUpTo(events, i + 1, item)
  {
    var date := MonthLabel(events[i].start);
    var html := item(events[i]);
    ListingStep(events, i, item, currentGroup, date, html, output);
    group, extended := currentGroup, output;
    if IsEmpty(group) || group != date {
      group := date;
      extended := extended + HeadingHtml(group);
    }
    extended := extended + html;
  }

  /** The success path of `shortcode_callback`: walk the rows in the order
      received, carrying the label of the current month group, and wrap the result. */
  method RenderListing(events: seq<Event>, item: Event -> string) returns (output: string)
    ensures output == WrapOpen + Render(Fragments(events), item) + WrapClose
  {
    var currentGroup := "";
    output := WrapOpen;
    var i := 0;
    while i < |events|
      invariant 0 <= i <= |events|
      invariant currentGroup == if i == 0 then "" else MonthLabel(events[i - 1].start)
      invariant output == WrapOpen + BodyUpTo(events, i, item)
    {
      currentGroup, output := AddEvent(events, i, item, currentGroup, output);
      i := i + 1;
    }
    BodyIsRender(events, |events|, item);
    output := output + WrapClose;
  }


  /** `shortcode_callback`: issue the event query; on an exception answer
      "error" and nothing else, otherwise render the listing. */
  method ShortcodeCallback(atts: Attrs, api: Query -> EventResult, home: string) returns (r: Response)
    ensures r.queries == [EventQuery(atts)]
    ensures api(EventQuery(atts)).ApiException? ==> r.output == "error"
    ensures api(EventQuery(atts)).Values? ==> r.output == Listing(api(EventQuery(atts)).values, home)
  {
    var query := EventQuery(atts);
    var result := api(query);
    if result.ApiException? {
      return Response("error", [query]);
    }
    var output := RenderListing(result.values, ItemRenderer(home));
    return Response(output, [query]);
  }

  // ------------------------------------------------------------------ what the body holds

  /** The events of the items among some fragments, in order. */
  function ItemsOf(fs: seq<Fragment>): seq<Event>
    decreases |fs|
  {
    if fs == [] then []
    else ItemsOf(fs[..|fs| - 1]) + (if fs[|fs| - 1].Item? then [fs[|fs| - 1].event] else [])
  }

  /** The months of the headings among some fragments, in order. */
  function HeadingsOf(fs: seq<Fragment>): seq<Date>
    decreases |fs|
  {
    if fs == [] then []
    else HeadingsOf(fs[..|fs| - 1]) + (if fs[|fs| - 1].Heading? then [fs[|fs| - 1].month] else [])
  }

  /** How many adjacent pairs among the first n events start in different months. */
  function MonthChangesUpTo(events: seq<Event>, n: nat): nat
    requires n <= |events|
    decreases n
  {
    if n <= 1 then 0
    else MonthChangesUpTo(events, n - 1) + (if SameMonth(events[n - 2].start, events[n - 1].start) then 0 else 1)
  }

  lemma {:induction false} CountsAppend(a: seq<Fragment>, b: seq<Fragment>)
    ensures ItemsOf(a + b) == ItemsOf(a) + ItemsOf(b)
    ensures HeadingsOf(a + b) == HeadingsOf(a) + HeadingsOf(b)
    decreases |b|
  {
    if b == [] {
      assert a + b == a;
    } else {
      var n := |b| - 1;
      assert (a + b)[..|a + b| - 1] == a + b[..n];
      assert (a + b)[|a + b| - 1] == b[n];
      CountsAppend(a, b[..n]);
    }
  }

  lemma StepItems(events: seq<Event>, i: nat)
    requires i < |events|
    ensures ItemsOf(StepFragments(events, i)) == [events[i]]
  {
    var it := [Item(events[i])];
    assert it[..0] == [];
    if NewMonth(events, i) {
      var h := [Heading(events[i].start)];
      assert h[..0] == [];
      CountsAppend(h, it);
    } else {
      assert StepFragments(events, i) == it;
    }
  }

  lemma ItemsAppend(before: seq<Fragment>, step: seq<Fragment>, earlier: seq<Event>, e: Event)
    requires ItemsOf(before) == earlier && ItemsOf(step) == [e]
    ensures ItemsOf(before + step) == earlier + [e]
  {
    CountsAppend(before, step);
  }

  /** The body of the first n events holds their items in input order. */
  lemma {:induction false} ItemsUpTo(events: seq<Event>, n: nat)
    requires n <= |events|
    ensures ItemsOf(FragmentsUpTo(events, n)) == events[..n]
    decreases n
  {
    if n > 0 {
      ItemsUpTo(events, n - 1);
      ItemsUpToStep(events, n);
    }
  }

  lemma ItemsUpToStep(events: seq<Event>, n: nat)
    requires 0 < n <= |events|
    requires ItemsOf(FragmentsUpTo(events, n - 1)) == events[..n - 1]
    ensures ItemsOf(FragmentsUpTo(events, n)) == events[..n]
  {
    var before, step := FragmentsUpTo(events, n - 1), StepFragments(events, n - 1);
    FragmentsUpToStep(events, n);
    StepItems(events, n - 1);
    ItemsAppend(before, step, events[..n - 1], events[n - 1]);
    TakeSnoc(events, n);
  }

  lemma TakeSnoc(events: seq<Event>, n: nat)
    requires 0 < n <= |events|
    ensures events[..n] == events[..n - 1] + [events[n - 1]]
  {
  }


  /** Every row becomes exactly one item, in the order the rows arrived. */
  lemma ItemsInOrder(events: seq<Event>)
    ensures ItemsOf(Fragments(events)) == events
  {
    ItemsUpTo(events, |events|);
    assert events[..|events|] == events;
  }

  /** The month of the nearest heading at or before position k. */
  function MonthAt(fs: seq<Fragment>, k: nat): Option<Date>
    requires k < |fs|
    decreases k
  {
    if fs[k].Heading? then Some(fs[k].month)
    else if k == 0 then None
    else MonthAt(fs, k - 1)
  }

  /** Every heading is directly followed by an item in the month it names. */
  predicate HeadingsAnnounce(fs: seq<Fragment>) {
    forall k :: 0 <= k < |fs| && fs[k].Heading? ==>
      k + 1 < |fs| && fs[k + 1].Item? && SameMonth(fs[k].month, fs[k + 1].event.start)
  }

  /** Every item sits under the heading of its own month. */
  predicate UnderOwnMonth(fs: seq<Fragment>) {
    forall k :: 0 <= k < |fs| && fs[k].Item? ==>
      MonthAt(fs, k).Some? && SameMonth(MonthAt(fs, k).value, fs[k].event.start)
  }

  lemma {:induction false} MonthAtPrefix(a: seq<Fragment>, b: seq<Fragment>, k: nat)
    requires k < |a|
    ensures MonthAt(a + b, k) == MonthAt(a, k)
    decreases k
  {
    if !a[k].Heading? && k > 0 {
      MonthAtPrefix(a, b, k - 1);
    }
  }

  /** The body of the first n events ends with the item of the n-th. */
  lemma EndsWithItem(events: seq<Event>, n: nat)
    requires 0 < n <= |events|
    ensures |FragmentsUpTo(events, n)| > 0
    ensures FragmentsUpTo(events, n)[|FragmentsUpTo(events, n)| - 1] == Item(events[n - 1])
  {
    FragmentsUpToStep(events, n);
  }

  lemma {:induction false} AnnounceUpTo(events: seq<Event>, n: nat)
    requires n <= |events|
    ensures HeadingsAnnounce(FragmentsUpTo(events, n))
    decreases n
  {
    if n > 0 {
      AnnounceUpTo(events, n - 1);
      AnnounceUpToStep(events, n);
    }
  }

  lemma AnnounceUpToStep(events: seq<Event>, n: nat)
    requires 0 < n <= |events|
    requires HeadingsAnnounce(FragmentsUpTo(events, n - 1))
    ensures HeadingsAnnounce(FragmentsUpTo(events, n))
  {
    var before, step := FragmentsUpTo(events, n - 1), StepFragments(events, n - 1);
    var fs := before + step;
    FragmentsUpToStep(events, n);
    var m := |before|;
    if m > 0 {
      EndsWithItem(events, n - 1);
    }
    forall k | 0 <= k < m ensures fs[k] == before[k] {
    }
    if NewMonth(events, n - 1) {
      assert fs[m] == Heading(events[n - 1].start);
      assert fs[m + 1] == Item(events[n - 1]);
      assert |fs| == m + 2;
    } else {
      assert fs[m] == Item(events[n - 1]);
      assert |fs| == m + 1;
    }
  }


  lemma {:induction false} OwnMonthUpTo(events: seq<Event>, n: nat)
    requires n <= |events|
    ensures UnderOwnMonth(FragmentsUpTo(events, n))
    decreases n
  {
    if n > 0 {
      OwnMonthUpTo(events, n - 1);
      OwnMonthUpToStep(events, n);
    }
  }

  lemma OwnMonthUpToStep(events: seq<Event>, n: nat)
    requires 0 < n <= |events|
    requires UnderOwnMonth(FragmentsUpTo(events, n - 1))
    ensures UnderOwnMonth(FragmentsUpTo(events, n))
  {
    var before, step := FragmentsUpTo(events, n - 1), StepFragments(events, n - 1);
    var fs := before + step;
    FragmentsUpToStep(events, n);
    var m := |before|;
    forall k | 0 <= k < m
      ensures fs[k] == before[k] && MonthAt(fs, k) == MonthAt(before, k)
    {
      MonthAtPrefix(before, step, k);
    }
    if NewMonth(events, n - 1) {
      assert fs[m] == Heading(events[n - 1].start);
      assert fs[m + 1] == Item(events[n - 1]);
      assert |fs| == m + 2;
    } else {
      EndsWithItem(events, n - 1);
      assert SameMonth(events[n - 2].start, events[n - 1].start);
      assert fs[m - 1] == Item(events[n - 2]);
      assert fs[m] == Item(events[n - 1]);
      assert |fs| == m + 1;
      assert MonthAt(fs, m) == MonthAt(fs, m - 1);
    }
  }


  /** The body is grouped by month: a heading always introduces an item of its
      month, and every item is listed under its own month's heading. */
  lemma Grouped(events: seq<Event>)
    ensures HeadingsAnnounce(Fragments(events))
    ensures UnderOwnMonth(Fragments(events))
  {
    AnnounceUpTo(events, |events|);
    OwnMonthUpTo(events, |events|);
  }

  lemma {:induction false} RenderNonEmpty(fs: seq<Fragment>, item: Event -> string)
    requires |HeadingsOf(fs)| > 0
    ensures |Render(fs, item)| > 0
    decreases |fs|
  {
    if !fs[|fs| - 1].Heading? {
      RenderNonEmpty(fs[..|fs| - 1], item);
    }
  }

  /** A body between an opening and a closing text: both are kept at the ends,
      and the result is the two texts alone exactly when the body is empty. */
  lemma Enclosed(open: string, body: string, close: string)
    ensures |open + body + close| >= |open| + |close|
    ensures (open + body + close)[..|open|] == open
    ensures (open + body + close)[|open + body + close| - |close|..] == close
    ensures open + body + close == open + close <==> body == []
  {
    var w := open + body + close;
    if w == open + close {
      assert |body| == 0;
    }
    assert w[|w| - |close|..] == close;
  }

  /** The listing is always wrapped in the listing container, and it is the bare
      container exactly when the query returned no rows. */
  lemma ListingShape(events: seq<Event>, home: string)
    ensures |Listing(events, home)| >= |WrapOpen| + |WrapClose|
    ensures Listing(events, home)[..|WrapOpen|] == WrapOpen
    ensures Listing(events, home)[|Listing(events, home)| - |WrapClose|..] == WrapClose
    ensures Listing(events, home) == WrapOpen + WrapClose <==> events == []
  {
    var body := Render(Fragments(events), ItemRenderer(home));
    Enclosed(WrapOpen, body, WrapClose);
    if events != [] {
      HeadingsCounted(events);
      RenderNonEmpty(Fragments(events), ItemRenderer(home));
    }
  }

  // ------------------------------------------------------------------ sorted rows

  /** `a` is no later than `b` in the order `start_date ASC` puts the rows in. */
  predicate NoLater(a: Date, b: Date) {
    if a.year != b.year then a.year < b.year
    else if a.month != b.month then a.month < b.month
    else if a.day != b.day then a.day < b.day
    else if a.hour != b.hour then a.hour < b.hour
    else if a.minute != b.minute then a.minute < b.minute
    else a.second <= b.second
  }

  predicate SortedByStart(events: seq<Event>) {
    forall i, j :: 0 <= i < j < |events| ==> NoLater(events[i].start, events[j].start)
  }

  predicate MonthBefore(a: Date, b: Date) {
    a.year < b.year || (a.year == b.year && a.month < b.month)
  }

  lemma StepHeadingMonths(events: seq<Event>, i: nat)
    requires i < |events|
    ensures HeadingsOf(StepFragments(events, i)) == Opened(events, i)
  {
    var it := [Item(events[i])];
    assert it[..0] == [];
    if NewMonth(events, i) {
      var h := [Heading(events[i].start)];
      assert h[..0] == [];
      CountsAppend(h, it);
    } else {
      assert StepFragments(events, i) == it;
    }
  }

  /** Strictly ascending months. */
  predicate Ascending(hs: seq<Date>) {
    forall i, j :: 0 <= i < j < |hs| ==> MonthBefore(hs[i], hs[j])
  }

  lemma AscendingAppend(hs: seq<Date>, e: Date)
    requires Ascending(hs)
    requires |hs| > 0 ==> MonthBefore(hs[|hs| - 1], e)
    ensures Ascending(hs + [e])
  {
    var hs' := hs + [e];
    forall i, j | 0 <= i < j < |hs'| ensures MonthBefore(hs'[i], hs'[j]) {
      if j == |hs| && i < |hs| - 1 {
        assert MonthBefore(hs[i], hs[|hs| - 1]);
      }
    }
  }

  /** One step of the listing on the heading months: the first event, or one
      in another month than the previous event `p`, adds its own month. */
  lemma AscendingStep(hs: seq<Date>, first: bool, p: Date, e: Date, opensMonth: bool, opens: seq<Date>)
    requires Ascending(hs)
    requires first ==> hs == []
    requires !first ==> |hs| > 0 && SameMonth(Last(hs), p) && NoLater(p, e)
    requires opensMonth == (first || !SameMonth(p, e))
    requires opens == if opensMonth then [e] else []
    ensures Ascending(hs + opens) && |hs + opens| > 0 && SameMonth(Last(hs + opens), e)
  {
    if opensMonth {
      AscendingAppend(hs, e);
    } else {
      assert hs + opens == hs;
    }
  }

  /** The month event i opens: its start, when it begins a new month. */
  function Opened(events: seq<Event>, i: nat): (r: seq<Date>)
    requires i < |events|
    ensures |r| <= 1
  {
    if NewMonth(events, i) then [events[i].start] else []
  }

  /** The start dates of those of the first n events that open a month group. */
  function OpeningsUpTo(events: seq<Event>, n: nat): seq<Date>
    requires n <= |events|
    decreases n
  {
    if n == 0 then [] else OpeningsUpTo(events, n - 1) + Opened(events, n - 1)
  }

  lemma OpeningsUpToStep(events: seq<Event>, n: nat)
    requires 0 < n <= |events|
    ensures OpeningsUpTo(events, n)
            == OpeningsUpTo(events, n - 1) + Opened(events, n - 1)
  {
  }

  /** One more event adds the month it opens, if any, to the headings. */
  lemma HeadingsUpToStep(events: seq<Event>, n: nat)
    requires 0 < n <= |events|
    ensures HeadingsOf(FragmentsUpTo(events, n)) == HeadingsOf(FragmentsUpTo(events, n - 1)) + Opened(events, n - 1)
  {
    var before, step := FragmentsUpTo(events, n - 1), StepFragments(events, n - 1);
    FragmentsUpToStep(events, n);
    StepHeadingMonths(events, n - 1);
    CountsAppend(before, step);
  }

  /** The headings of the first n events are the months of the events that open a group. */
  lemma {:induction false} HeadingMonthsUpTo(events: seq<Event>, n: nat)
    requires n <= |events|
    ensures HeadingsOf(FragmentsUpTo(events, n)) == OpeningsUpTo(events, n)
    decreases n
  {
    if n > 0 {
      HeadingMonthsUpTo(events, n - 1);
      HeadingMonthsUpToStep(events, n);
    }
  }

  lemma HeadingMonthsUpToStep(events: seq<Event>, n: nat)
    requires 0 < n <= |events|
    requires HeadingsOf(FragmentsUpTo(events, n - 1)) == OpeningsUpTo(events, n - 1)
    ensures HeadingsOf(FragmentsUpTo(events, n)) == OpeningsUpTo(events, n)
  {
    HeadingsUpToStep(events, n);
    OpeningsUpToStep(events, n);
  }


  /** On sorted rows the group openings among the first n events lie in strictly
      ascending months, the last of them in the month of the n-th event. */
  lemma {:induction false} AscendingUpTo(events: seq<Event>, n: nat)
    requires n <= |events|
    requires SortedByStart(events)
    ensures Ascending(OpeningsUpTo(events, n))
    ensures n > 0 ==> |OpeningsUpTo(events, n)| > 0 && SameMonth(Last(OpeningsUpTo(events, n)), events[n - 1].start)
    decreases n
  {
    if n > 0 {
      AscendingUpTo(events, n - 1);
      AscendingUpToStep(events, n);
    }
  }

  lemma AscendingUpToStep(events: seq<Event>, n: nat)
    requires 0 < n <= |events|
    requires SortedByStart(events)
    requires Ascending(OpeningsUpTo(events, n - 1))
    requires n > 1 ==> |OpeningsUpTo(events, n - 1)| > 0 && SameMonth(Last(OpeningsUpTo(events, n - 1)), events[n - 2].start)
    ensures Ascending(OpeningsUpTo(events, n))
    ensures |OpeningsUpTo(events, n)| > 0 && SameMonth(Last(OpeningsUpTo(events, n)), events[n - 1].start)
  {
    var e := events[n - 1].start;
    var p := if n > 1 then events[n - 2].start else e;
    OpeningsUpToStep(events, n);
    var hs := OpeningsUpTo(events, n - 1);
    assert n == 1 ==> hs == [];
    assert n > 1 ==> |hs| > 0 && SameMonth(Last(hs), p);
    assert n > 1 ==> NoLater(p, e);
    assert NewMonth(events, n - 1) == (n == 1 || !SameMonth(p, e));
    assert Opened(events, n - 1) == if NewMonth(events, n - 1) then [e] else [];
    AscendingStep(hs, n == 1, p, e, NewMonth(events, n - 1), Opened(events, n - 1));
  }


  lemma {:induction false} OpeningsCounted(events: seq<Event>, n: nat)
    requires n <= |events|
    ensures |OpeningsUpTo(events, n)| == if n == 0 then 0 else 1 + MonthChangesUpTo(events, n)
    decreases n
  {
    if n > 0 {
      OpeningsCounted(events, n - 1);
    }
  }

  /** The listing has a heading for the first event and one more at every change
      of (month, year) between neighbouring events, and none for an empty result. */
  lemma HeadingsCounted(events: seq<Event>)
    ensures |HeadingsOf(Fragments(events))| == if events == [] then 0 else 1 + MonthChangesUpTo(events, |events|)
  {
    HeadingMonthsUpTo(events, |events|);
    OpeningsCounted(events, |events|);
  }

  function Last(hs: seq<Date>): Date
    requires |hs| > 0
  {
    hs[|hs| - 1]
  }

  /** When the rows come sorted by start date, as the query asks, the headings
      name strictly ascending months, so no month's caption is shown twice. */
  lemma MonthsAscending(events: seq<Event>)
    requires SortedByStart(events)
    ensures Ascending(HeadingsOf(Fragments(events)))
    ensures var hs := HeadingsOf(Fragments(events));
            forall i, j :: 0 <= i < j < |hs| ==> MonthLabel(hs[i]) != MonthLabel(hs[j])
  {
    HeadingMonthsUpTo(events, |events|);
    AscendingUpTo(events, |events|);
    var hs := HeadingsOf(Fragments(events));
    forall i, j | 0 <= i < j < |hs| ensures MonthLabel(hs[i]) != MonthLabel(hs[j]) {
      MonthYearLabelIff(hs[i], hs[j]);
    }
  }
}

=== FILE: php.dfy ===
/** The small part of PHP's semantics the two shortcode handlers rely on:
    `empty()` on strings, ordered string-keyed arrays, `array_change_key_case`,
    and `explode`/`implode` on a one-character separator. */
module Php {

  datatype Option<T> = None | Some(value: T)

  /** PHP's `empty()` on a string: true for "" and for "0". */
  predicate IsEmpty(s: string) {
    s == "" || s == "0"
  }

  /** PHP's truthiness of a string value that may be null (an absent key). */
  predicate Truthy(v: Option<string>) {
    v.Some? && !IsEmpty(v.value)
  }

  /** `$array[$key]` on an array with string values, or None when the key is absent. */
  function Get(m: map<string, string>, key: string): Option<string>
  {
    if key in m then Some(m[key]) else None
  }

  /** A run of assignments `$r[$key] = $value`, in order. Assigning a key that is
      already present overwrites its value in place, so reading the result sees
      the value of the LAST assignment to that key. */
  type Assignments = seq<(string, string)>

  /** No key is assigned twice: each entry's key is new to the entries before it. */
  predicate DistinctKeys(a: Assignments)
    decreases |a|
  {
    |a| <= 1 || (Lookup(a[..|a| - 1], a[|a| - 1].0).None? && DistinctKeys(a[..|a| - 1]))
  }

  /** A PHP array of string keys and string values, as a shortcode receives its
      attributes: its entries in iteration order, each key once. Assigning the
      entries in that order builds the array, so every `Attrs` is also an
      `Assignments`. */
  type Attrs = a: Assignments | DistinctKeys(a)

  /** `$r[$key]` after the assignments, or None when the key was never assigned
      (PHP reads that as null). */
  function Lookup(atts: Assignments, key: string): (r: Option<string>)
    ensures r.None? <==> forall i :: 0 <= i < |atts| ==> atts[i].0 != key
    ensures r.Some? ==> exists i :: 0 <= i < |atts| && atts[i] == (key, r.value)
                                  && forall j :: i < j < |atts| ==> atts[j].0 != key
    decreases |atts|
  {
    if atts == [] then None
    else if atts[|atts| - 1].0 == key then Some(atts[|atts| - 1].1)
    else Lookup(atts[..|atts| - 1], key)
  }

  /** On a PHP array, `$atts[$key]` reads the one entry with that key. */
  lemma {:induction false} LookupEntry(atts: Attrs, key: string, i: nat)
    requires i < |atts| && atts[i].0 == key
    ensures Lookup(atts, key) == Some(atts[i].1)
    decreases |atts|
  {
    if i < |atts| - 1 {
      var before: Attrs := atts[..|atts| - 1];
      assert before[i] == atts[i];
      LookupEntry(before, key, i);
    }
  }

  /** ASCII lower-casing of one character; every other character is kept. */
  function LowerChar(c: char): (r: char)
    ensures !('A' <= r <= 'Z')
    ensures !('A' <= c <= 'Z') ==> r == c
  {
    if 'A' <= c <= 'Z' then (c as int - 'A' as int + 'a' as int) as char else c
  }

  /** ASCII lower-casing of a string, character by character. */
  function Lower(s: string): string
  {
    seq(|s|, i requires 0 <= i < |s| => LowerChar(s[i]))
  }

  /** `array_change_key_case($atts, CASE_LOWER)`, as the assignments it performs
      while it walks the array in iteration order: every key lower-cased, so a
      key that lowers onto an earlier one overwrites that entry's value. */
  function ChangeKeyCaseLower(atts: Assignments): Assignments
  {
    seq(|atts|, i requires 0 <= i < |atts| => (Lower(atts[i].0), atts[i].1))
  }

  /** After lower-casing, looking up a lower-case key finds the value of the
      last attribute, in the array's iteration order, whose key spells it in
      any letter case. */
  lemma {:induction false} LookupLowered(atts: Attrs, key: string)
    requires Lower(key) == key
    ensures Lookup(ChangeKeyCaseLower(atts), key).None?
            <==> forall i :: 0 <= i < |atts| ==> Lower(atts[i].0) != key
    ensures Lookup(ChangeKeyCaseLower(atts), key).Some? ==>
              exists i :: 0 <= i < |atts| && Lower(atts[i].0) == key
                          && atts[i].1 == Lookup(ChangeKeyCaseLower(atts), key).value
                          && forall j :: i < j < |atts| ==> Lower(atts[j].0) != key
  {
    var lowered := ChangeKeyCaseLower(atts);
    var r := Lookup(lowered, key);
    if r.Some? {
      var i :| 0 <= i < |lowered| && lowered[i] == (key, r.value)
               && forall j :: i < j < |lowered| ==> lowered[j].0 != key;
      assert Lower(atts[i].0) == key && atts[i].1 == r.value;
      forall j | i < j < |atts| ensures Lower(atts[j].0) != key {
        assert lowered[j].0 != key;
      }
    } else {
      forall i | 0 <= i < |atts| ensures Lower(atts[i].0) != key {
        assert lowered[i].0 != key;
      }
    }
  }

  lemma LowerIdempotent(s: string)
    ensures Lower(Lower(s)) == Lower(s)
  {
    var once := Lower(s);
    forall i | 0 <= i < |s| ensures Lower(once)[i] == once[i] {
      assert !('A' <= once[i] <= 'Z');
    }
  }

  /** Normalising the keys twice is normalising them once: keys that are
      already lower-case stay as they are. */
  lemma {:induction false} ChangeKeyCaseIdempotent(atts: Assignments)
    ensures ChangeKeyCaseLower(ChangeKeyCaseLower(atts)) == ChangeKeyCaseLower(atts)
  {
    var once := ChangeKeyCaseLower(atts);
    forall i | 0 <= i < |atts| ensures ChangeKeyCaseLower(once)[i] == once[i] {
      LowerIdempotent(atts[i].0);
    }
  }

  /** Two attribute arrays that agree once their keys are lower-cased are
      indistinguishable after `ChangeKeyCaseLower`: `ID="5"` and `id="5"` alike. */
  lemma {:induction false} KeyCaseIsIrrelevant(a: Attrs, b: Attrs)
    requires |a| == |b|
    requires forall i :: 0 <= i < |a| ==> Lower(a[i].0) == Lower(b[i].0) && a[i].1 == b[i].1
    ensures ChangeKeyCaseLower(a) == ChangeKeyCaseLower(b)
  {
    var la, lb := ChangeKeyCaseLower(a), ChangeKeyCaseLower(b);
    forall i | 0 <= i < |la| ensures la[i] == lb[i] {
      assert la[i] == (Lower(a[i].0), a[i].1);
    }
  }

  /** `explode($sep, $s)`: the pieces of `s` between occurrences of `sep`. */
  function Explode(sep: char, s: string): (r: seq<string>)
    ensures |r| >= 1
    ensures forall i :: 0 <= i < |r| ==> sep !in r[i]
    decreases |s|
  {
    if s == [] then [""]
    else
      var rest := Explode(sep, s[1..]);
      if s[0] == sep then [""] + rest
      else [[s[0]] + rest[0]] + rest[1..]
  }

  /** `implode($sep, $parts)`: the parts joined by `sep`. */
  function Implode(sep: char, parts: seq<string>): string
    decreases |parts|
  {
    if parts == [] then ""
    else if |parts| == 1 then parts[0]
    else parts[0] + [sep] + Implode(sep, parts[1..])
  }

  /** Exploding loses nothing: joining the pieces back gives the original string. */
  lemma {:induction false} ImplodeExplode(sep: char, s: string)
    ensures Implode(sep, Explode(sep, s)) == s
    decreases |s|
  {
    if s != [] {
      var rest := Explode(sep, s[1..]);
      ImplodeExplode(sep, s[1..]);
      if s[0] == sep {
        assert Explode(sep, s) == [""] + rest;
        assert s == [sep] + s[1..];
      } else {
        var parts := [[s[0]] + rest[0]] + rest[1..];
        assert Explode(sep, s) == parts;
        if |rest| == 1 {
          assert s == [s[0]] + s[1..];
        } else {
          assert Implode(sep, rest) == rest[0] + [sep] + Implode(sep, rest[1..]);
          assert parts[1..] == rest[1..];
          assert s == [s[0]] + s[1..];
        }
      }
    }
  }

  /** Exploding a join of separator-free parts gives the parts back, so the two
      are mutually inverse on the values explode can produce. */
  lemma {:induction false} ExplodeImplode(sep: char, parts: seq<string>)
    requires |parts| >= 1
    requires forall i :: 0 <= i < |parts| ==> sep !in parts[i]
    ensures Explode(sep, Implode(sep, parts)) == parts
    decreases |parts|
  {
    if |parts| == 1 {
      ExplodeFree(sep, parts[0]);
    } else {
      ExplodeImplode(sep, parts[1..]);
      var tail := Implode(sep, parts[1..]);
      ExplodeWithPrefix(sep, parts[0], tail);
      assert Implode(sep, parts) == parts[0] + ([sep] + tail);
    }
  }

  /** A string without the separator explodes to itself. */
  lemma {:induction false} ExplodeFree(sep: char, s: string)
    requires sep !in s
    ensures Explode(sep, s) == [s]
    decreases |s|
  {
    if s != [] {
      ExplodeFree(sep, s[1..]);
      assert [s[0]] + s[1..] == s;
    }
  }

  /** Exploding `p + sep + t` for a separator-free `p` gives `p` then the pieces of `t`. */
  lemma {:induction false} ExplodeWithPrefix(sep: char, p: string, t: string)
    requires sep !in p
    ensures Explode(sep, p + ([sep] + t)) == [p] + Explode(sep, t)
    decreases |p|
  {
    var s := p + ([sep] + t);
    if p == [] {
      assert s == [sep] + t;
      assert s[1..] == t;
    } else {
      ExplodeWithPrefix(sep, p[1..], t);
      assert s[1..] == p[1..] + ([sep] + t);
      assert [p[0]] + p[1..] == p;
    }
  }
}

=== FILE: scenarios.dfy ===
/** Worked cases of the event listing: the date texts of an item and the month
    grouping of three rows, evaluated on concrete values. */
module Scenarios {
  import opened Php
  import opened DateFormat
  import opened EventListing
  import CampaignGoalAmount

  lemma Year2024()
    ensures Padded(2024, 4) == "2024"
  {
    assert Padded(2, 1) == "2";
    assert Padded(20, 2) == Padded(2, 1) + "0";
    assert Padded(202, 3) == Padded(20, 2) + "2";
    assert Padded(2024, 4) == Padded(202, 3) + "4";
  }

  lemma ZeroMinutes()
    ensures Padded(0, 2) == "00"
  {
    assert Padded(0, 2) == Padded(0, 1) + "0";
  }

  lemma TwoDigitDays()
    ensures Decimal(10) == "10" && Decimal(12) == "12"
  {
    assert Decimal(10) == Decimal(1) + "0";
    assert Decimal(12) == Decimal(1) + "2";
  }

  // Spellings of the literals the scenarios compare against: each states one
  // join of literals, so the string-literal proofs stay cheap.

  lemma MarchSpelling()
    ensures " " + "March" + " " + "2024" == " March 2024"
  {
  }

  lemma TenthSpelling()
    ensures "10" + " March 2024" == "10 March 2024"
  {
  }

  lemma TwelfthSpelling()
    ensures "12" + " March 2024" == "12 March 2024"
  {
  }

  lemma NineAmSpelling()
    ensures "10 March 2024" + " " + "9:00 am" == "10 March 2024 9:00 am"
    ensures "12 March 2024" + " " + "9:00 am" == "12 March 2024 9:00 am"
  {
  }

  /** A day of March 2024 reads "<day> March 2024" (`j F Y`). */
  lemma MarchDay(d: Date)
    requires d.year == 2024 && d.month == 3
    ensures DayMonthYear(d) == Decimal(d.day) + " March 2024"
  {
    Year2024();
    assert MonthName(3) == "March";
    MarchSpelling();
    ConcatAssoc(Decimal(d.day), " ", "March");
    assert DayMonthYear(d) == Decimal(d.day) + (" " + "March" + " " + "2024");
  }

  /** The dates "10 March 2024" and "12 March 2024" (`j F Y`). */
  lemma MarchDays(d: Date)
    requires d.year == 2024 && d.month == 3 && (d.day == 10 || d.day == 12)
    ensures d.day == 10 ==> DayMonthYear(d) == "10 March 2024"
    ensures d.day == 12 ==> DayMonthYear(d) == "12 March 2024"
  {
    MarchDay(d);
    TwoDigitDays();
    if d.day == 10 {
      TenthSpelling();
    } else {
      TwelfthSpelling();
    }
  }

  /** The clock 9:00 am (`g:i a`). */
  lemma NineAm(d: Date)
    requires d.hour == 9 && d.minute == 0
    ensures Time(d) == "9:00 am"
  {
    ZeroMinutes();
    assert Decimal(Hour12(9)) == "9";
  }

  /** The clock 5:00 pm (`g:i a`). */
  lemma FivePm(d: Date)
    requires d.hour == 17 && d.minute == 0
    ensures Time(d) == "5:00 pm"
  {
    ZeroMinutes();
    assert Decimal(Hour12(17)) == "5";
  }

  /** 9:00 am on 10 March 2024 and on 12 March 2024 (`j F Y g:i a`). */
  lemma MarchAtNine(d: Date)
    requires d.year == 2024 && d.month == 3 && (d.day == 10 || d.day == 12) && d.hour == 9 && d.minute == 0
    ensures d.day == 10 ==> DayMonthYearTime(d) == "10 March 2024 9:00 am"
    ensures d.day == 12 ==> DayMonthYearTime(d) == "12 March 2024 9:00 am"
  {
    MarchDays(d);
    NineAm(d);
    NineAmSpelling();
  }

  /** An event starting at midnight with no end shows its date only. */
  lemma MidnightStartShowsDateOnly(start: Date)
    requires start.year == 2024 && start.month == 3 && start.day == 10 && start.hour == 0 && start.minute == 0
    ensures DateRange(Event("1", "Gala", "", start, None)) == "10 March 2024"
  {
    assert StyleFor(start) == DateOnly;
    MarchDays(start);
  }

  /** The range of an event that starts off midnight and ends on its start day. */
  lemma TimedSameDay(e: Event)
    requires !IsMidnight(e.start) && e.end.Some? && SameDay(e.start, e.end.value)
    ensures DateRange(e) == DayMonthYearTime(e.start) + " to " + Time(e.end.value)
  {
    assert StyleFor(e.start) == DateAndTime;
    ConcatAssoc(DayMonthYearTime(e.start), " to ", Time(e.end.value));
  }

  /** The range of an event that starts off midnight and ends on another day. */
  lemma TimedOtherDay(e: Event)
    requires !IsMidnight(e.start) && e.end.Some? && !SameDay(e.start, e.end.value)
    ensures DateRange(e) == DayMonthYearTime(e.start) + " to " + DayMonthYearTime(e.end.value)
  {
    assert StyleFor(e.start) == DateAndTime;
    ConcatAssoc(DayMonthYearTime(e.start), " to ", DayMonthYearTime(e.end.value));
  }

  /** An event ending on the day it starts shows only the end time after "to". */
  lemma SameDayShowsEndTime(start: Date, end: Date)
    requires start.year == 2024 && start.month == 3 && start.day == 10 && start.hour == 9 && start.minute == 0
    requires end.year == 2024 && end.month == 3 && end.day == 10 && end.hour == 17 && end.minute == 0
    ensures DateRange(Event("1", "Gala", "", start, Some(end))) == "10 March 2024 9:00 am" + " to " + "5:00 pm"
  {
    TimedSameDay(Event("1", "Gala", "", start, Some(end)));
    MarchAtNine(start);
    FivePm(end);
  }

  /** An event ending on another day shows the full end date in the start's style. */
  lemma OtherDayShowsEndDate(start: Date, end: Date)
    requires start.year == 2024 && start.month == 3 && start.day == 10 && start.hour == 9 && start.minute == 0
    requires end.year == 2024 && end.month == 3 && end.day == 12 && end.hour == 9 && end.minute == 0
    ensures DateRange(Event("1", "Gala", "", start, Some(end))) == "10 March 2024 9:00 am" + " to " + "12 March 2024 9:00 am"
  {
    TimedOtherDay(Event("1", "Gala", "", start, Some(end)));
    MarchAtNine(start);
    MarchAtNine(end);
  }

  /** Rows starting on 5 January, 20 January and 1 February 2024 give two groups:
      "January, 2024" with the first two items, then "February, 2024" with the third. */
  lemma TwoMonthGroups(events: seq<Event>)
    requires |events| == 3
    requires events[0].start.year == 2024 && events[0].start.month == 1 && events[0].start.day == 5
    requires events[1].start.year == 2024 && events[1].start.month == 1 && events[1].start.day == 20
    requires events[2].start.year == 2024 && events[2].start.month == 2 && events[2].start.day == 1
    ensures Fragments(events)
            == [Heading(events[0].start), Item(events[0]), Item(events[1]), Heading(events[2].start), Item(events[2])]
    ensures MonthLabel(events[0].start) == "January, 2024"
    ensures MonthLabel(events[2].start) == "February, 2024"
  {
    FragmentsUpToStep(events, 1);
    FragmentsUpToStep(events, 2);
    FragmentsUpToStep(events, 3);
    assert StepFragments(events, 0) == [Heading(events[0].start), Item(events[0])];
    assert StepFragments(events, 1) == [Item(events[1])];
    assert StepFragments(events, 2) == [Heading(events[2].start), Item(events[2])];
    Year2024();
    assert MonthName(1) == "January" && MonthName(2) == "February";
  }

  /** The two handlers register under different tags, so one registry can hold both. */
  lemma TagsDistinct()
    ensures EventListing.ShortcodeName() != CampaignGoalAmount.ShortcodeName()
  {
    assert EventListing.ShortcodeName()[0] == 'c';
    assert CampaignGoalAmount.ShortcodeName()[0] == 'u';
  }
}
